=== FILE: README.md ===
# Aahaar Tandoori ordering app — a Dafny model of its state and screen logic

The app is a React Native restaurant client. Customers browse a seeded menu,
filter and search it, build a basket of full or half portions, and check out.
An administrator can switch items on and off, edit prices and delete items.
All of its logic sits in three state containers (basket, menu catalog,
session) and in a few pure decisions that the screens make before calling
them. This project models that logic as immutable Dafny datatypes and pure
functions, and proves the properties the code relies on.

Modules, one per source component:

- `Options`: `Option` and `Result`.
- `Seqs`: `filter`, `map`, `slice(0, n)` on sequences, plus the subsequence relation and the lemmas about them.
- `Text`: `toLowerCase` (ASCII letters) and `includes`.
- `Catalog` (`src/context/MenuContext.js`): items, categories, the `{ ...item, ...fields }` merge, and `updateItem`, `addItem` and `removeItem`.
- `Seed` (`src/context/MenuContext.js`): the 26-item starting catalog and what holds of it.
- `Cart` (`src/context/CartContext.js`): basket lines keyed by (item id, portion), add-or-merge, quantity update, remove, clear, and the total.
- `MenuScreen` (`src/screens/MenuScreen.js`):
  - the three-step `filteredMenu` pipeline;
  - a one-pass reference definition, which the pipeline is proved to equal;
  - the category-button toggle.
- `CartScreen` (`src/screens/CartScreen.js`): the quantity steppers, the checkout gate and the price shown on each line.
- `AdminScreen` (`src/screens/AdminScreen.js`): the availability switch, price and half-price validation, confirmed delete, and the popular-items list.
- `HomeScreen` (`src/screens/HomeScreen.js`): the featured strip, the per-category available counts and the basket-size figure.
- `Auth` (`src/context/AuthContext.js`):
  - code-to-role login, logout and the startup restore;
  - the admin-tab condition of `src/navigation/MainTabNavigator.js`.

Modelling choices:

- Prices and quantities are mathematical integers. Every seeded price is an integer.
- `halfPrice` is `Option<int>`. JavaScript truthiness of `item.halfPrice` is `Some(h)` with `h != 0` (`Catalog.HasHalfPrice`).
- A basket line stores the whole item as it was when first added. The merge branch of `addToCart` keeps that snapshot, so re-adding an item after a price edit charges the old unit price. The model keeps this behaviour.
- Dialogs become parameters:
  - a confirmation becomes the button that was pressed;
  - a price prompt becomes the parse of its text (`None` for `NaN`);
  - an error alert becomes a boolean in the result.
- Storage effects become parameters:
  - a read becomes what it produced;
  - a write becomes whether it succeeded;
  - the clock is passed in as a string.
- A login sets the user before it saves the session:
  - In `AuthContext.js` the user is set at line 47, before the write at line 48.
  - The `catch` at lines 50-52 then rethrows, so a failed write leaves the user logged in while `login` rejects.
  - `Auth.Login` returns `Failure(StorageWriteFailed)` with the user already set.

## Model

| member | source | states |
|---|---|---|
| `Text.Lower` | src/screens/MenuScreen.js:37-38 | lower-casing keeps the length and maps each character on its own, upper-case ASCII letters to lower case and everything else unchanged |
| `Text.LowerIdempotent` | src/screens/MenuScreen.js:37-38 | lower-casing twice is lower-casing once, and no upper-case ASCII letter survives it |
| `Text.IncludesAt` | src/screens/MenuScreen.js:37-38 | the scanning `includes` holds exactly when the needle occurs at some index of the haystack |
| `Catalog.HasHalfPrice` | src/context/CartContext.js:53 | a half price counts only when it is present and not zero: a missing or zero half price is falsy, a positive one is truthy |
| `Catalog.Merge` | src/context/MenuContext.js:330 | merging `{}` leaves the item as it was, and each of `{ available }`, `{ price }`, `{ halfPrice }` replaces just that field |
| `Catalog.MergeLaws` | src/context/MenuContext.js:330 | merging `{}` leaves an item as it was; merging the same fields twice is merging once; each of `{ available }`, `{ price }`, `{ halfPrice }` changes only its own field |
| `Catalog.AllItems` | src/screens/AdminScreen.js:202 | `flatMap` over the categories contains every item of every category and nothing else |
| `Catalog.UpdateItem` | src/context/MenuContext.js:323-337 | categories keep their number, order, ids and names; other categories are identical; in a matching category each item with the id becomes its merge with the fields and every other item is unchanged |
| `Catalog.UpdateItemMissing` | src/context/MenuContext.js:326-334 | an unknown category id or item id leaves the menu unchanged |
| `Catalog.UpdateItemAt` | src/context/MenuContext.js:325-331 | with unambiguous ids, the menu differs only in the one addressed item, which is replaced by its merge |
| `Catalog.AddItem` | src/context/MenuContext.js:339-351 | categories keep their number, order, ids and names; a matching category gains the new item at its end and keeps its old items as a prefix; others are identical |
| `Catalog.AddItemMissing` | src/context/MenuContext.js:341-349 | adding to a category that does not exist changes nothing |
| `Catalog.RemoveItem` | src/context/MenuContext.js:353-365 | categories keep their number, order, ids and names; others are identical; a matching category keeps exactly its items whose id differs |
| `Catalog.RemoveItemEffect` | src/context/MenuContext.js:359 | no item with the id survives in the matching category; every other item survives, and in relative order |
| `Catalog.RemoveItemMissing` | src/context/MenuContext.js:355-363 | removing an item that is not in the category leaves the menu unchanged |
| `Catalog.RemoveItemAt` | src/context/MenuContext.js:353-365 | with unambiguous ids, removal splices exactly the addressed item out of its category |
| `Catalog.AddThenRemove` | src/context/MenuContext.js:339-365 | adding an item whose id is new to its category and then removing that id restores the menu |
| `Seed.SeedItems` | src/context/MenuContext.js:8-321 | the starting menu's items, across categories, are the biryani, rice, roti and paratha lists in that order |
| `Seed.SeedIdsInOrder` | src/context/MenuContext.js:8-321 | the starting items carry the ids "1" to "26" in menu order |
| `Seed.SeedItemIdsUnique` | src/context/MenuContext.js:8-321 | no two items of the starting menu share an id, across all categories |
| `Seed.SeedPrices` | src/context/MenuContext.js:8-321 | every starting item has a positive price; where a half price is given it is positive and below the full price; spice levels are 0 to 3 |
| `Seed.SeedAvailabilityScenario` | src/context/MenuContext.js:323-337 | switching off item "3" of category "1" of the starting menu changes only that item's availability |
| `Seed.SeedMissingItemScenario` | src/context/MenuContext.js:323-337 | an update of item "999" leaves the starting menu unchanged |
| `Cart.FindLine` | src/context/CartContext.js:12-14 | `findIndex` yields -1 exactly when no line has the (id, portion) key, and otherwise the first matching position |
| `Cart.AddToCart` | src/context/CartContext.js:10-24 | for an absent key, exactly one line (the item, portion and quantity) is appended; for a present key, a matching line's quantity grows by the added quantity and every other line, and the length, are unchanged |
| `Cart.RemoveFromCart` | src/context/CartContext.js:41-45 | no line with the key survives, every other line does, and survivors keep their order |
| `Cart.UpdateQuantity` | src/context/CartContext.js:26-39 | a quantity of zero or less gives the same basket as removing the key; a positive one sets the matching lines' quantity to exactly that value and leaves every other line as it was |
| `Cart.ClearCart` | src/context/CartContext.js:47-49 | the basket becomes empty |
| `Cart.UnitPrice` | src/context/CartContext.js:53 | a full portion costs the price; a half portion costs the half price when that is truthy and the full price otherwise; with a positive price and no negative half price the unit price is positive |
| `Cart.Total` | src/context/CartContext.js:52-54 | an empty basket totals 0, and a basket with no negative line total never totals below 0 |
| `Cart.GetTotalPrice` | src/context/CartContext.js:51-56 | the `reduce` loop returns the sum over lines of unit price times quantity |
| `Cart.RemoveAbsent` | src/context/CartContext.js:42-44 | removing a key that no line has changes nothing |
| `Cart.RemoveAt` | src/context/CartContext.js:42-44 | with unique keys, removal splices out exactly the one matching line |
| `Cart.UpdateAbsent` | src/context/CartContext.js:26-38 | updating a key that no line has changes nothing, whatever the quantity |
| `Cart.UpdateAt` | src/context/CartContext.js:32-38 | with unique keys, a positive update changes exactly one line's quantity |
| `Cart.AddKeepsUnique` | src/context/CartContext.js:12-21 | add-or-merge keeps (id, portion) keys unique |
| `Cart.UpdateKeepsUnique` | src/context/CartContext.js:26-38 | updating a quantity keeps keys unique |
| `Cart.OperationsKeepUnique` | src/context/CartContext.js:10-49 | add, update, remove and clear all keep (id, portion) keys unique |
| `Cart.OperationsKeepPositive` | src/context/CartContext.js:10-44 | if every add uses a quantity of at least one, every line keeps a quantity of at least one through add, update, remove and clear |
| `Cart.TotalConcat` | src/context/CartContext.js:51-56 | the total of two baskets placed end to end is the sum of their totals |
| `Cart.TotalReplace` | src/context/CartContext.js:51-56 | replacing one line changes the total by the difference of the two line totals |
| `Cart.TotalAfterMerge` | src/context/CartContext.js:16-19 | merging `q` more units into a line raises the total by `q` times that line's unit price |
| `Cart.TotalAfterAppend` | src/context/CartContext.js:20-21 | appending a line raises the total by its line total |
| `Cart.TotalAfterAdd` | src/context/CartContext.js:10-24 | adding `q` units raises the total by `q` units, priced from the existing line's snapshot when the key is present, else from the item passed in |
| `Cart.TotalAfterRemove` | src/context/CartContext.js:41-45 | with unique keys, removing a line lowers the total by its line total |
| `Cart.TotalAfterClear` | src/context/CartContext.js:47-49 | after clearing, the total is 0 |
| `Cart.TotalScenario` | src/context/CartContext.js:51-56 | one full Chicken Biryani (220) totals 220; two half portions (120 each) more make a second line and 460 |
| `Cart.RepeatedAddsMerge` | src/context/CartContext.js:10-24 | any number of adds of an absent key leave exactly one line for it, at the end, whose quantity is the sum of the added quantities |
| `MenuScreen.FilteredMenu` | src/screens/MenuScreen.js:24-54 | the pipeline never shows more categories than the menu has; each category shown passes the category selector; once a search or a veg filter is active no shown category is empty |
| `MenuScreen.Narrow` | src/screens/MenuScreen.js:34-50 | narrowing keeps the category's id and name, keeps only admitted items, and keeps every admitted item |
| `MenuScreen.FilteredMenuIsReference` | src/screens/MenuScreen.js:24-54 | the category, search and veg steps together equal the one-pass reference: each selected category, narrowed to admitted items, shown unless a search or veg filter left it empty |
| `MenuScreen.NoFilterIsIdentity` | src/screens/MenuScreen.js:25-53 | with category `'all'`, an empty query and veg `'all'`, the menu is shown unchanged |
| `MenuScreen.ReferenceMenuSound` | src/screens/MenuScreen.js:24-54 | every category of the reference result is the narrowed form of a shown category of the menu |
| `MenuScreen.ReferenceMenuComplete` | src/screens/MenuScreen.js:24-54 | every shown category of the menu appears, narrowed, in the reference result |
| `MenuScreen.FilteredMenuContents` | src/screens/MenuScreen.js:28-51 | each result category is the selected one (or any, under `'all'`), holds only admitted items, and is non-empty after a search or veg filter; every admitted item of a selected category is shown under that category's id |
| `MenuScreen.KeepsMeaning` | src/screens/MenuScreen.js:33-49 | a non-empty query admits exactly the items whose lower-cased name or description contains the lower-cased query; `'veg'` admits exactly vegetarian items, any other non-`'all'` value exactly the others |
| `MenuScreen.FilteredMenuOrder` | src/screens/MenuScreen.js:24-54 | the result's category ids are a subsequence of the menu's, and its items, taken across categories, a subsequence of the menu's items |
| `MenuScreen.SearchIgnoresCase` | src/screens/MenuScreen.js:36-39 | two queries that lower-case alike give the same result |
| `MenuScreen.CategoryStepKeepsEmpty` | src/screens/MenuScreen.js:28-41 | in any menu, selecting a category with no items shows it with an empty list, while any non-empty search or any veg filter other than `'all'` removes it |
| `MenuScreen.ToggleCategory` | src/screens/MenuScreen.js:63-65 | the new selection is `'all'` or the tapped category: the tapped one unless it was already selected |
| `MenuScreen.ToggleTwice` | src/screens/MenuScreen.js:63-65 | tapping the same button twice returns to the starting selection, when that was `'all'` or that category |
| `CartScreen.QuantityChange` | src/screens/CartScreen.js:27-33 | a key with no line leaves the basket as it was; otherwise the found line's current quantity plus the step goes to `updateQuantity`, which removes the line at zero or below and sets the quantity above zero |
| `CartScreen.StepAt` | src/screens/CartScreen.js:27-33 | with unique keys, a step either sets the line's quantity to old plus step or, at zero or below, splices the line out |
| `CartScreen.StepUpThenDown` | src/screens/CartScreen.js:27-33 | with unique keys and positive quantities, + followed by - restores the basket |
| `CartScreen.StepDownAtOne` | src/screens/CartScreen.js:27-33 | - on a line of quantity 1 removes the line, exactly as `removeFromCart` would |
| `CartScreen.StepKeepsInvariants` | src/screens/CartScreen.js:27-33 | the steppers keep keys unique and quantities at least one |
| `CartScreen.Checkout` | src/screens/CartScreen.js:50-86 | "Incomplete Details" exactly when name, address or phone is missing; "Empty Cart" exactly when they are filled in and the basket is empty; cancelled exactly when both checks pass and the user presses "Cancel"; the order is placed, for the basket's total, exactly when both checks pass and the user confirms; the basket is cleared exactly on the final "OK" and otherwise untouched |
| `CartScreen.CheckoutGate` | src/screens/CartScreen.js:51-59 | the instructions field never affects checkout, and an incomplete form is reported even for an empty basket |
| `CartScreen.DisplayedLinePrice` | src/screens/CartScreen.js:142 | the price shown on a line is the unit price the total uses; it differs from the full price only for a half portion with a truthy half price |
| `AdminScreen.ToggleAvailability` | src/screens/AdminScreen.js:24-26 | every addressed item gets `available` equal to the negated status passed in; no other field and no other item changes |
| `AdminScreen.ToggleTwice` | src/screens/AdminScreen.js:24-26 | for an unambiguous item, the switch flips exactly its availability, and flipping twice restores the menu |
| `AdminScreen.EditPrice` | src/screens/AdminScreen.js:28-49 | the price changes only for an input that parses to a number above zero, and then only the addressed items' `price`; any other input raises the error and leaves the menu unchanged; "Cancel" does neither |
| `AdminScreen.EditHalfPrice` | src/screens/AdminScreen.js:51-72 | the same rule for `halfPrice`: only the addressed items' half price changes, and only to an accepted value |
| `AdminScreen.HalfPriceOfferStable` | src/screens/AdminScreen.js:133-140 | no edit on the admin screen adds or removes the half-price button of any item: the switch and the price prompt leave `halfPrice` alone, and the half-price prompt, whose button is shown only where `HasHalfPrice` holds, stores a positive value |
| `AdminScreen.DeleteItem` | src/screens/AdminScreen.js:74-87 | without "Delete" nothing changes, and with it the result is `removeItem`; categories keep their shape, items keep their order, other categories are identical, every item with another id survives, the item id is gone from its category, and an id that is not there changes nothing |
| `AdminScreen.PopularItems` | src/screens/AdminScreen.js:202 | the popular list is the first five items across all categories in order, or all of them when there are fewer |
| `AdminScreen.PopularFromFirstCategory` | src/screens/AdminScreen.js:202 | when the first category has five or more items, the popular list is that category's first five |
| `AdminScreen.SeedPopular` | src/screens/AdminScreen.js:202 | for the starting menu the popular list is exactly the five biryanis |
| `HomeScreen.AvailableCount` | src/screens/HomeScreen.js:67 | the count on a category card is the number of available items, counted one by one; so it is at most the number of items, equals it exactly when every item is available, and is 0 exactly when none is |
| `HomeScreen.FilterAvailableCount` | src/screens/HomeScreen.js:67 | filtering for `available` keeps exactly as many items as a one-by-one count of available items finds |
| `HomeScreen.FeaturedOf` | src/screens/HomeScreen.js:19 | a category contributes min(2, available count) items, all available and all its own, in its order |
| `HomeScreen.FeaturedItems` | src/screens/HomeScreen.js:18-20 | every featured item is available, there are at most twice as many as categories, and they keep menu order across categories |
| `HomeScreen.TakeFilterIsScan` | src/screens/HomeScreen.js:19 | cutting the available items to the first `n` equals scanning from the front for the first `n` available items |
| `HomeScreen.FeaturedIsScan` | src/screens/HomeScreen.js:18-20 | the strip is each category's first two available items, found by scanning, categories in order |
| `HomeScreen.FeaturedCounts` | src/screens/HomeScreen.js:18-20 | when every category has at least two available items, the strip holds exactly two per category |
| `HomeScreen.CartCountStat` | src/screens/HomeScreen.js:77 | "Items in Cart" is the number of lines, not units: 0 exactly for an empty basket, and with positive quantities at most the number of units, equal to it exactly when every line holds one unit |
| `HomeScreen.CountBelowQuantity` | src/screens/HomeScreen.js:77 | with positive quantities, the number of lines is at most the number of units |
| `HomeScreen.CountEqualsQuantity` | src/screens/HomeScreen.js:77 | with positive quantities, the number of lines equals the number of units exactly when every line holds one unit |
| `HomeScreen.CartCountScenario` | src/screens/HomeScreen.js:77 | adding one dish twice shows 1 line while holding 2 units |
| `Auth.Initial` | src/context/AuthContext.js:9-10 | the provider starts with nobody logged in and loading true |
| `Auth.CheckLoginStatus` | src/context/AuthContext.js:16-27 | the startup check always ends loading; it adopts the stored user only when one was read, and otherwise leaves the user as it was |
| `Auth.RoleForCode` | src/context/AuthContext.js:33-39 | `'AAHAR2024'` and only it yields admin; `'CUSTOMER24'` and only it yields customer; every other code yields no role |
| `Auth.Login` | src/context/AuthContext.js:29-53 | an invalid code fails with the invalid-code error and leaves the session unchanged; a valid code sets the user to the mobile number, derived role and login time; success, carrying that role, happens exactly when the code is valid and the write succeeded |
| `Auth.Logout` | src/context/AuthContext.js:55-62 | the user becomes absent whatever happens to the stored record; loading is untouched |
| `Auth.AdminTabVisible` | src/navigation/MainTabNavigator.js:51-53 | the Admin tab is hidden when nobody is logged in and for a customer, and shown for an administrator |
| `Auth.LoginGatesAdminTab` | src/navigation/MainTabNavigator.js:51-53 | after a login attempt the Admin tab is shown exactly when the code was the admin code, or the code was invalid and it was already shown |
| `Auth.LoginScenario` | src/context/AuthContext.js:33-39 | "AAHAR2024" logs in as admin; "WRONG" fails with the invalid-code error and establishes no session |
| `Auth.LogoutClears` | src/context/AuthContext.js:55-62 | after any login and a logout nobody is logged in and the Admin tab is hidden, and a restore that finds nothing keeps it so |
| `Auth.StartupScenario` | src/context/AuthContext.js:16-27 | from the initial state, startup ends loading and logs someone in exactly when a stored record was read |

## Left out

- Rendering, styles and navigation calls are left out; they are presentation only. `App.js` and `LoginScreen.js` are left out too, including the login screen's own check for empty fields. Of `MainTabNavigator.js` only the Admin-tab condition is modelled.
- AsyncStorage and JSON are not modelled as effects:
  - the startup read is the `StoredRead` parameter, where a read error and unparsable data are both `ReadFailed`;
  - the login write is the `persisted` flag;
  - the logout removal cannot change the outcome, so it is not modelled at all;
  - `new Date().toISOString()` is the `now` parameter.
- `Auth.CheckLoginStatus`: a stored value that parses to something other than a user record (for example the text `null`, which would set the user to `null`) is not modelled; a read yields a user, nothing, or an error.
- `Auth.CheckLoginStatus` and `Auth.Logout`: the error logging in their `catch` blocks is left out because it has no effect on state.
- React state mechanics are left out; the model uses value semantics:
  - setState batching;
  - `getTotalPrice` reading the `cart` of the current render;
  - the in-place `quantity +=` at `CartContext.js:18` on an object shared with the previous state.
- `AdminScreen.EditPrice` and `AdminScreen.EditHalfPrice`: prices are integers, so fractional prices from `parseFloat` are not modelled. The parse is a parameter (`None` for `NaN`).
- `Text.Lower` lower-cases ASCII letters only, not the full Unicode `toLowerCase`.
- The 5% tax, delivery fee and `toFixed(2)` display (`CartScreen.js:212-235`) are left out: this is floating-point display arithmetic that changes no state.
- The fixed analytics figures (`AdminScreen.js:167-197, 210`) and the home-screen constants (`HomeScreen.js:81-86`) are left out: they are literals with no logic.
- The confirmation wrappers are left out; each only calls an operation modelled above after a button press:
  - `handleRemoveItem` (`CartScreen.js:35-48`) calls `removeFromCart`;
  - `handleLogout` (`AdminScreen.js:89-98`) calls `logout`.
- The menu's "Half" and "Add" buttons (`MenuScreen.js:112-125`) are covered by `Cart.AddToCart`. They call `addToCart` with the default quantity 1, and the "Half" button appears only when `halfPrice` is truthy.
- `addItem` has no caller in the screens. It is modelled as the context provides it.
- JavaScript numbers are doubles. Integer overflow and precision are not modelled: quantities and prices are unbounded integers.

=== FILE: admin_screen.dfy ===
/** The administrator's menu management (src/screens/AdminScreen.js): the
    availability switch, the price and half-price prompts with their validation,
    the confirmed delete, and the "popular items" list. A prompt's text is
    replaced by what parsing it produced; alerts become an error flag. */
module AdminScreen {
  import opened Options
  import opened Seqs
  import opened Catalog
  import opened Seed

  /** Menu `b` is menu `a` with every item `itemId` of category `categoryId` replaced by `edit` of
      itself, and everything else as it was. */
  predicate EditedAt(a: Menu, b: Menu, categoryId: string, itemId: string, edit: MenuItem -> MenuItem)
  {
    && SameCategories(a, b)
    && (forall i :: 0 <= i < |a| ==> |b[i].items| == |a[i].items|)
    && (forall i, j :: 0 <= i < |a| && 0 <= j < |a[i].items| ==>
          b[i].items[j] == (if a[i].id == categoryId && a[i].items[j].id == itemId then edit(a[i].items[j]) else a[i].items[j]))
  }

  function WithAvailable(b: bool): MenuItem -> MenuItem
  {
    (x: MenuItem) => x.(available := b)
  }

  function WithPrice(p: int): MenuItem -> MenuItem
  {
    (x: MenuItem) => x.(price := p)
  }

  function WithHalfPrice(h: int): MenuItem -> MenuItem
  {
    (x: MenuItem) => x.(halfPrice := Some(h))
  }

  /** An update with a single-field patch changes that field of the addressed items and nothing else. */
  lemma UpdateEdits(menu: Menu, categoryId: string, itemId: string, patch: ItemPatch, edit: MenuItem -> MenuItem)
    requires forall x: MenuItem :: Merge(x, patch) == edit(x)
    ensures EditedAt(menu, UpdateItem(menu, categoryId, itemId, patch), categoryId, itemId, edit)
  {
  }

  /** `handleToggleAvailability(categoryId, itemId, currentStatus)`: send `{ available: !currentStatus }`. */
  function ToggleAvailability(menu: Menu, categoryId: string, itemId: string, currentStatus: bool): (r: Menu)
    ensures EditedAt(menu, r, categoryId, itemId, WithAvailable(!currentStatus))
  {
    var patch := SetAvailable(!currentStatus);
    assert forall x: MenuItem :: Merge(x, patch) == WithAvailable(!currentStatus)(x) by {
      forall x: MenuItem
        ensures Merge(x, patch) == WithAvailable(!currentStatus)(x)
      {
        MergeLaws(x, patch, !currentStatus, 0, 0);
      }
    }
    UpdateEdits(menu, categoryId, itemId, patch, WithAvailable(!currentStatus));
    UpdateItem(menu, categoryId, itemId, patch)
  }

  /** The switch of the item at (i, k), which passes that item's own status, flips exactly its
      availability; flipping it twice restores the menu. */
  lemma ToggleTwice(menu: Menu, i: int, k: int)
    requires LocatedAt(menu, i, k)
    ensures var c, x := menu[i].id, menu[i].items[k];
      && ToggleAvailability(menu, c, x.id, x.available) == menu[i := menu[i].(items := menu[i].items[k := x.(available := !x.available)])]
      && var once := ToggleAvailability(menu, c, x.id, x.available);
         ToggleAvailability(once, c, x.id, once[i].items[k].available) == menu
  {
    var c, x := menu[i].id, menu[i].items[k];
    UpdateItemAt(menu, i, k, SetAvailable(!x.available));
    MergeLaws(x, NoFields, !x.available, 0, 0);
    var once := ToggleAvailability(menu, c, x.id, x.available);
    assert LocatedAt(once, i, k);
    UpdateItemAt(once, i, k, SetAvailable(x.available));
    MergeLaws(once[i].items[k], NoFields, x.available, 0, 0);
    assert once[i].items[k := once[i].items[k].(available := x.available)] == menu[i].items;
  }

  /** The answer to a price prompt: "Cancel", or "Update" with the parse of the text, `None` standing for `NaN`. */
  datatype PromptReply = Cancel | Update(parsed: Option<int>)

  /** The value the prompt accepts: a number greater than zero. */
  predicate Accepted(reply: PromptReply)
  {
    reply.Update? && reply.parsed.Some? && reply.parsed.value > 0
  }

  /** The resulting menu, and whether the "Please enter a valid price" alert was raised. */
  datatype EditOutcome = EditOutcome(menu: Menu, error: bool)

  /** `handleEditPrice(categoryId, item)`: an accepted reply sends `{ price }`; any other "Update" raises the alert. */
  function EditPrice(menu: Menu, categoryId: string, item: MenuItem, reply: PromptReply): (r: EditOutcome)
    ensures r.error <==> reply.Update? && !Accepted(reply)
    ensures !Accepted(reply) ==> r.menu == menu
    ensures Accepted(reply) ==> EditedAt(menu, r.menu, categoryId, item.id, WithPrice(reply.parsed.value))
  {
    if !reply.Update? then EditOutcome(menu, false)
    else if reply.parsed.Some? && reply.parsed.value > 0 then
      var patch := SetPrice(reply.parsed.value);
      assert forall x: MenuItem :: Merge(x, patch) == WithPrice(reply.parsed.value)(x);
      UpdateEdits(menu, categoryId, item.id, patch, WithPrice(reply.parsed.value));
      EditOutcome(UpdateItem(menu, categoryId, item.id, patch), false)
    else EditOutcome(menu, true)
  }

  /** `handleEditHalfPrice(categoryId, item)`: the same rule, sending `{ halfPrice }`. */
  function EditHalfPrice(menu: Menu, categoryId: string, item: MenuItem, reply: PromptReply): (r: EditOutcome)
    ensures r.error <==> reply.Update? && !Accepted(reply)
    ensures !Accepted(reply) ==> r.menu == menu
    ensures Accepted(reply) ==> EditedAt(menu, r.menu, categoryId, item.id, WithHalfPrice(reply.parsed.value))
  {
    if !reply.Update? then EditOutcome(menu, false)
    else if reply.parsed.Some? && reply.parsed.value > 0 then
      var patch := SetHalfPrice(reply.parsed.value);
      assert forall x: MenuItem :: Merge(x, patch) == WithHalfPrice(reply.parsed.value)(x);
      UpdateEdits(menu, categoryId, item.id, patch, WithHalfPrice(reply.parsed.value));
      EditOutcome(UpdateItem(menu, categoryId, item.id, patch), false)
    else EditOutcome(menu, true)
  }

  /** No edit made on this screen gives a half price to an item that had none, or takes one away:
      the switch and the full-price prompt leave `halfPrice` alone, and the half-price prompt, whose button
      is shown only where `HasHalfPrice` holds, stores a positive value. */
  lemma HalfPriceOfferStable(menu: Menu, categoryId: string, item: MenuItem, reply: PromptReply, i: int, j: int)
    requires 0 <= i < |menu| && 0 <= j < |menu[i].items|
    requires menu[i].items[j].id == item.id ==> (HasHalfPrice(menu[i].items[j]) <==> HasHalfPrice(item))
    ensures var a := ToggleAvailability(menu, categoryId, item.id, item.available);
      HasHalfPrice(a[i].items[j]) == HasHalfPrice(menu[i].items[j])
    ensures var p := EditPrice(menu, categoryId, item, reply).menu;
      HasHalfPrice(p[i].items[j]) == HasHalfPrice(menu[i].items[j])
    ensures HasHalfPrice(item) ==> var h := EditHalfPrice(menu, categoryId, item, reply).menu;
      HasHalfPrice(h[i].items[j]) == HasHalfPrice(menu[i].items[j])
  {
  }

  /** `handleDeleteItem(categoryId, itemId, itemName)`: removes the item only on "Delete". */
  function DeleteItem(menu: Menu, categoryId: string, itemId: string, confirmed: bool): (r: Menu)
    ensures !confirmed ==> r == menu
    ensures SameCategories(menu, r)
    ensures forall i :: 0 <= i < |menu| ==> IsSubseq(r[i].items, menu[i].items)
    ensures forall i, k :: 0 <= i < |r| && 0 <= k < |r[i].items| && r[i].items[k].id == itemId ==> r[i].id != categoryId || !confirmed
    ensures confirmed ==> r == RemoveItem(menu, categoryId, itemId)
    ensures forall i :: 0 <= i < |menu| && menu[i].id != categoryId ==> r[i] == menu[i]
    ensures forall i, k :: 0 <= i < |menu| && 0 <= k < |menu[i].items| && menu[i].items[k].id != itemId ==> menu[i].items[k] in r[i].items
    ensures !HasItem(menu, categoryId, itemId) ==> r == menu
  {
    if confirmed then
      var r := RemoveItem(menu, categoryId, itemId);
      assert !HasItem(menu, categoryId, itemId) ==> r == menu by {
        if !HasItem(menu, categoryId, itemId) {
          RemoveItemMissing(menu, categoryId, itemId);
        }
      }
      assert forall i :: 0 <= i < |menu| ==> (IsSubseq(r[i].items, menu[i].items) &&
        forall k :: 0 <= k < |menu[i].items| && menu[i].items[k].id != itemId ==> menu[i].items[k] in r[i].items) by {
        forall i | 0 <= i < |menu|
          ensures IsSubseq(r[i].items, menu[i].items)
          ensures forall k :: 0 <= k < |menu[i].items| && menu[i].items[k].id != itemId ==> menu[i].items[k] in r[i].items
        {
          if menu[i].id == categoryId {
            RemoveItemEffect(menu, categoryId, itemId, i);
          } else {
            SubseqRefl(menu[i].items);
          }
        }
      }
      assert forall i :: 0 <= i < |menu| && menu[i].id == categoryId ==>
        forall k :: 0 <= k < |r[i].items| ==> r[i].items[k].id != itemId by {
        forall i | 0 <= i < |menu| && menu[i].id == categoryId
          ensures forall k :: 0 <= k < |r[i].items| ==> r[i].items[k].id != itemId
        {
          RemoveItemEffect(menu, categoryId, itemId, i);
        }
      }
      r
    else
      assert forall i :: 0 <= i < |menu| ==> IsSubseq(menu[i].items, menu[i].items) by {
        forall i | 0 <= i < |menu|
          ensures IsSubseq(menu[i].items, menu[i].items)
        {
          SubseqRefl(menu[i].items);
        }
      }
      menu
  }

  /** The "Popular Items" list: the first five items of the whole menu in category order, or all of them. */
  function PopularItems(menu: Menu): (r: seq<MenuItem>)
    ensures |r| == if |AllItems(menu)| < 5 then |AllItems(menu)| else 5
    ensures r == AllItems(menu)[..|r|]
  {
    Take(AllItems(menu), 5)
  }

  /** Popular items are listed in menu order; with at least five items in the first category they
      are that category's first five. */
  lemma PopularFromFirstCategory(menu: Menu)
    requires |menu| > 0 && |menu[0].items| >= 5
    ensures PopularItems(menu) == menu[0].items[..5]
  {
    assert menu == [menu[0]] + menu[1..];
    AllItemsConcat([menu[0]], menu[1..]);
    assert AllItems([menu[0]]) == menu[0].items;
  }

  /** For the starting menu the popular items are exactly the five biryanis. */
  lemma SeedPopular()
    ensures PopularItems(SeedMenu) == BiryaniItems
  {
    PopularFromFirstCategory(SeedMenu);
  }
}

=== FILE: auth.dfy ===
/** The session (src/context/AuthContext.js): the logged-in user, decided by
    matching a code against two fixed strings, and a loading flag for the
    startup check. Storage reads and writes are not modelled as effects: their
    outcomes arrive as parameters, and the clock reading as a string. */
module Auth {
  import opened Options

  datatype Role = Admin | Customer

  /** The identity record `{ mobileNumber, role, loginTime }`. */
  datatype User = User(mobileNumber: string, role: Role, loginTime: string)

  /** The provider's state: the current user (`null` when logged out) and the startup loading flag. */
  datatype Session = Session(user: Option<User>, loading: bool)

  const AdminCode := "AAHAR2024"
  const CustomerCode := "CUSTOMER24"

  /** The state before the startup check has finished: nobody logged in, still loading. */
  function Initial(): (s: Session)
    ensures s.user.None? && s.loading
  {
    Session(None, true)
  }

  /** What reading the stored identity produced: an error (a failed read or unparsable data),
      nothing stored, or a user record. */
  datatype StoredRead = ReadFailed | NothingStored | Stored(user: User)

  /** `checkLoginStatus()`: adopt the stored user if there is one; stop loading in every case. */
  function CheckLoginStatus(s: Session, read: StoredRead): (r: Session)
    ensures !r.loading
    ensures read.Stored? ==> r.user == Some(read.user)
    ensures !read.Stored? ==> r.user == s.user
  {
    match read
    case Stored(u) => Session(Some(u), false)
    case _ => s.(loading := false)
  }

  /** The role a login code grants, if any. */
  function RoleForCode(code: string): (r: Option<Role>)
    ensures r == Some(Admin) <==> code == AdminCode
    ensures r == Some(Customer) <==> code == CustomerCode
    ensures r.None? <==> code != AdminCode && code != CustomerCode
  {
    if code == AdminCode then Some(Admin)
    else if code == CustomerCode then Some(Customer)
    else None
  }

  /** Why a login was rejected: the code matched neither role ("Invalid code. Please try again.")
      or the identity record could not be written. */
  datatype LoginError = InvalidCode | StorageWriteFailed

  datatype LoginOutcome = LoginOutcome(session: Session, result: Result<Role, LoginError>)

  /** `login(mobileNumber, code)`. `now` is the clock reading stored as the login time and `persisted`
      whether the storage write succeeded. The user is set before the write, so a failed write
      still leaves the user logged in while the call reports an error. */
  function Login(s: Session, mobileNumber: string, code: string, now: string, persisted: bool): (r: LoginOutcome)
    ensures RoleForCode(code).None? ==> r.session == s && r.result == Failure(InvalidCode)
    ensures RoleForCode(code).Some? ==>
      r.session == s.(user := Some(User(mobileNumber, RoleForCode(code).value, now)))
    ensures r.result.Success? <==> RoleForCode(code).Some? && persisted
    ensures r.result.Success? ==> r.result.value == RoleForCode(code).value
  {
    match RoleForCode(code)
    case None => LoginOutcome(s, Failure(InvalidCode))
    case Some(role) =>
      var s' := s.(user := Some(User(mobileNumber, role, now)));
      if persisted then LoginOutcome(s', Success(role)) else LoginOutcome(s', Failure(StorageWriteFailed))
  }

  /** `logout()`: the user is cleared whether or not removing the stored record succeeds. */
  function Logout(s: Session): (r: Session)
    ensures r.user.None?
    ensures r.loading == s.loading
  {
    s.(user := None)
  }

  /** The "Admin" tab is present exactly when the current user is an admin. */
  predicate AdminTabVisible(s: Session)
    ensures s.user.None? ==> !AdminTabVisible(s)
    ensures s.user.Some? && s.user.value.role == Customer ==> !AdminTabVisible(s)
    ensures s.user.Some? && s.user.value.role == Admin ==> AdminTabVisible(s)
  {
    s.user.Some? && s.user.value.role == Admin
  }

  /** A login with the admin code reveals the admin tab (even if the write failed); one with the
      customer code hides it; an invalid code leaves it as it was. */
  lemma LoginGatesAdminTab(s: Session, mobileNumber: string, code: string, now: string, persisted: bool)
    ensures var r := Login(s, mobileNumber, code, now, persisted);
      AdminTabVisible(r.session) <==> code == AdminCode || (code != CustomerCode && AdminTabVisible(s))
  {
  }

  /** Logging in as "9999999999" with "AAHAR2024" yields the admin role; with "WRONG" it fails
      with an invalid-code error and establishes no session. */
  lemma LoginScenario(now: string)
    ensures Login(Initial(), "9999999999", "AAHAR2024", now, true).result == Success(Admin)
    ensures var r := Login(Initial(), "9999999999", "WRONG", now, true);
      r.result == Failure(InvalidCode) && r.session.user.None?
  {
  }

  /** Whatever happened before, logging out leaves nobody logged in and hides the admin tab;
      a restore that finds nothing afterwards keeps it that way. */
  lemma LogoutClears(s: Session, mobileNumber: string, code: string, now: string, persisted: bool, read: StoredRead)
    requires !read.Stored?
    ensures var out := Logout(Login(s, mobileNumber, code, now, persisted).session);
      && out.user.None? && !AdminTabVisible(out)
      && CheckLoginStatus(out, read).user.None?
  {
  }

  /** Startup ends loading whatever the read produced, and only a stored record logs anyone in. */
  lemma StartupScenario(read: StoredRead)
    ensures var s := CheckLoginStatus(Initial(), read);
      !s.loading && (s.user.Some? <==> read.Stored?)
  {
  }
}

=== FILE: cart.dfy ===
/** The order basket (src/context/CartContext.js): a list of lines keyed by
    (item id, portion), each holding a snapshot of the item as it was when
    added, and a total recomputed from the lines on every read. */
module Cart {
  import opened Options
  import opened Seqs
  import opened Catalog

  datatype Portion = Full | Half

  /** A basket line, `{ ...item, portion, quantity }`: the item's fields as they were when added. */
  datatype CartEntry = CartEntry(item: MenuItem, portion: Portion, quantity: int)

  type Basket = seq<CartEntry>

  /** The line is the one for item `id` in portion `portion`. */
  predicate Matches(e: CartEntry, id: string, portion: Portion)
  {
    e.item.id == id && e.portion == portion
  }

  predicate HasLine(cart: Basket, id: string, portion: Portion)
  {
    exists i :: 0 <= i < |cart| && Matches(cart[i], id, portion)
  }

  /** The key a line is found by. */
  datatype LineKey = LineKey(id: string, portion: Portion)

  function Key(e: CartEntry): LineKey
  {
    LineKey(e.item.id, e.portion)
  }

  /** No two lines share an (id, portion) key. */
  predicate UniqueLines(cart: Basket)
  {
    DistinctBy(Key, cart)
  }

  /** Every line has a quantity of at least one. */
  predicate AllPositive(cart: Basket)
  {
    forall i :: 0 <= i < |cart| ==> cart[i].quantity >= 1
  }

  /** `findIndex` for the key (id, portion): the first matching position, or -1. */
  function FindLine(cart: Basket, id: string, portion: Portion): (r: int)
    ensures -1 <= r < |cart|
    ensures r == -1 <==> !HasLine(cart, id, portion)
    ensures r >= 0 ==> Matches(cart[r], id, portion) && forall k :: 0 <= k < r ==> !Matches(cart[k], id, portion)
  {
    if |cart| == 0 then -1
    else if Matches(cart[0], id, portion) then 0
    else
      var k := FindLine(cart[1..], id, portion);
      assert forall j :: 1 <= j < |cart| ==> cart[j] == cart[1..][j - 1];
      if k == -1 then -1 else k + 1
  }

  /** `addToCart(item, portion, quantity)`: merge into the existing line for the key, or append a new one. */
  function AddToCart(cart: Basket, item: MenuItem, portion: Portion, quantity: int): (r: Basket)
    ensures !HasLine(cart, item.id, portion) ==> r == cart + [CartEntry(item, portion, quantity)]
    ensures HasLine(cart, item.id, portion) ==>
      exists i :: 0 <= i < |cart| && Matches(cart[i], item.id, portion)
        && r == cart[i := cart[i].(quantity := cart[i].quantity + quantity)]
  {
    var i := FindLine(cart, item.id, portion);
    if i == -1 then cart + [CartEntry(item, portion, quantity)]
    else cart[i := cart[i].(quantity := cart[i].quantity + quantity)]
  }

  function NotLine(id: string, portion: Portion): CartEntry -> bool
  {
    (e: CartEntry) => !Matches(e, id, portion)
  }

  /** `removeFromCart(itemId, portion)`: drop every line with the key, keep the rest in order. */
  function RemoveFromCart(cart: Basket, id: string, portion: Portion): (r: Basket)
    ensures forall i :: 0 <= i < |r| ==> r[i] in cart && !Matches(r[i], id, portion)
    ensures forall i :: 0 <= i < |cart| && !Matches(cart[i], id, portion) ==> cart[i] in r
    ensures IsSubseq(r, cart)
  {
    FilterIsSubseq(NotLine(id, portion), cart);
    Filter(NotLine(id, portion), cart)
  }

  function SetQuantityIfLine(id: string, portion: Portion, n: int): CartEntry -> CartEntry
  {
    (e: CartEntry) => if Matches(e, id, portion) then e.(quantity := n) else e
  }

  /** `updateQuantity(itemId, portion, newQuantity)`: a quantity of zero or less removes the line;
      otherwise the line's quantity becomes exactly `newQuantity`. */
  function UpdateQuantity(cart: Basket, id: string, portion: Portion, newQuantity: int): (r: Basket)
    ensures newQuantity <= 0 ==> r == RemoveFromCart(cart, id, portion)
    ensures newQuantity > 0 ==> |r| == |cart| && forall i :: 0 <= i < |cart| ==>
      r[i] == (if Matches(cart[i], id, portion) then cart[i].(quantity := newQuantity) else cart[i])
  {
    if newQuantity <= 0 then RemoveFromCart(cart, id, portion)
    else Map(SetQuantityIfLine(id, portion, newQuantity), cart)
  }

  /** `clearCart()`. */
  function ClearCart(): (r: Basket)
    ensures |r| == 0
  {
    []
  }

  /** The unit price of a line: the half price for a half portion whose half price is truthy, else the full price. */
  function UnitPrice(e: CartEntry): (r: int)
    ensures e.portion == Full ==> r == e.item.price
    ensures e.portion == Half && HasHalfPrice(e.item) ==> r == e.item.halfPrice.value
    ensures e.portion == Half && !HasHalfPrice(e.item) ==> r == e.item.price
    ensures e.item.price > 0 && (e.item.halfPrice.Some? ==> e.item.halfPrice.value >= 0) ==> r > 0
  {
    if e.portion == Half && HasHalfPrice(e.item) then e.item.halfPrice.value else e.item.price
  }

  function LineTotal(e: CartEntry): int
  {
    UnitPrice(e) * e.quantity
  }

  /** No line of the basket has a negative line total. */
  predicate NoNegativeLines(cart: Basket)
  {
    forall k :: 0 <= k < |cart| ==> LineTotal(cart[k]) >= 0
  }

  /** The sum of the line totals, accumulated left to right as `reduce` does. */
  function Total(cart: Basket): (r: int)
    ensures |cart| == 0 ==> r == 0
    ensures NoNegativeLines(cart) ==> r >= 0
  {
    if |cart| == 0 then 0 else Total(cart[..|cart| - 1]) + LineTotal(cart[|cart| - 1])
  }

  /** `getTotalPrice()`: recomputed from the current lines on every call. */
  method GetTotalPrice(cart: Basket) returns (total: int)
    ensures total == Total(cart)
  {
    total := 0;
    var i := 0;
    while i < |cart|
      invariant 0 <= i <= |cart|
      invariant total == Total(cart[..i])
    {
      assert cart[..i + 1][..i] == cart[..i];
      total := total + LineTotal(cart[i]);
      i := i + 1;
    }
    assert cart[..|cart|] == cart;
  }

  // ---------------------------------------------------------------------------
  // Lookups, removals and updates on a basket with unique keys

  lemma UniqueOthers(cart: Basket, i: int)
    requires UniqueLines(cart) && 0 <= i < |cart|
    ensures forall j :: 0 <= j < |cart| && j != i ==> !Matches(cart[j], cart[i].item.id, cart[i].portion)
  {
    forall j | 0 <= j < |cart| && j != i
      ensures !Matches(cart[j], cart[i].item.id, cart[i].portion)
    {
      if j < i {
        assert Key(cart[j]) != Key(cart[i]);
      } else {
        assert Key(cart[i]) != Key(cart[j]);
      }
    }
  }

  /** Removing an absent key changes nothing. */
  lemma RemoveAbsent(cart: Basket, id: string, portion: Portion)
    requires !HasLine(cart, id, portion)
    ensures RemoveFromCart(cart, id, portion) == cart
  {
    FilterKeepsAll(NotLine(id, portion), cart);
  }

  /** In a basket with unique keys, removal splices out exactly the one matching line. */
  lemma RemoveAt(cart: Basket, i: int)
    requires UniqueLines(cart) && 0 <= i < |cart|
    ensures RemoveFromCart(cart, cart[i].item.id, cart[i].portion) == cart[..i] + cart[i + 1..]
  {
    UniqueOthers(cart, i);
    FilterSplice(NotLine(cart[i].item.id, cart[i].portion), cart, i);
  }

  /** Updating an absent key changes nothing, whatever the new quantity. */
  lemma UpdateAbsent(cart: Basket, id: string, portion: Portion, newQuantity: int)
    requires !HasLine(cart, id, portion)
    ensures UpdateQuantity(cart, id, portion, newQuantity) == cart
  {
    RemoveAbsent(cart, id, portion);
  }

  /** In a basket with unique keys, a positive update sets that one line's quantity and nothing else. */
  lemma UpdateAt(cart: Basket, i: int, newQuantity: int)
    requires UniqueLines(cart) && 0 <= i < |cart| && newQuantity > 0
    ensures UpdateQuantity(cart, cart[i].item.id, cart[i].portion, newQuantity)
         == cart[i := cart[i].(quantity := newQuantity)]
  {
    UniqueOthers(cart, i);
  }

  // ---------------------------------------------------------------------------
  // Invariants kept by every operation

  lemma AddKeepsUnique(cart: Basket, item: MenuItem, portion: Portion, q: int)
    requires UniqueLines(cart)
    ensures UniqueLines(AddToCart(cart, item, portion, q))
  {
    var added := AddToCart(cart, item, portion, q);
    assert forall k :: 0 <= k < |cart| ==> Key(added[k]) == Key(cart[k]);
    if !HasLine(cart, item.id, portion) {
      assert forall k :: 0 <= k < |cart| ==> Key(cart[k]) != Key(added[|cart|]);
    }
  }

  lemma UpdateKeepsUnique(cart: Basket, id: string, portion: Portion, n: int)
    requires UniqueLines(cart)
    ensures UniqueLines(UpdateQuantity(cart, id, portion, n))
  {
    if n <= 0 {
      FilterDistinctBy(Key, NotLine(id, portion), cart);
    } else {
      var updated := UpdateQuantity(cart, id, portion, n);
      assert forall k :: 0 <= k < |cart| ==> Key(updated[k]) == Key(cart[k]);
    }
  }

  /** Adding, updating, removing and clearing all keep keys unique. */
  lemma OperationsKeepUnique(cart: Basket, item: MenuItem, id: string, portion: Portion, n: int)
    requires UniqueLines(cart)
    ensures UniqueLines(AddToCart(cart, item, portion, n))
    ensures UniqueLines(UpdateQuantity(cart, id, portion, n))
    ensures UniqueLines(RemoveFromCart(cart, id, portion))
    ensures UniqueLines(ClearCart())
  {
    AddKeepsUnique(cart, item, portion, n);
    UpdateKeepsUnique(cart, id, portion, n);
    FilterDistinctBy(Key, NotLine(id, portion), cart);
  }

  lemma RemoveKeepsPositive(cart: Basket, id: string, portion: Portion)
    requires AllPositive(cart)
    ensures AllPositive(RemoveFromCart(cart, id, portion))
  {
    var removed := RemoveFromCart(cart, id, portion);
    forall k | 0 <= k < |removed|
      ensures removed[k].quantity >= 1
    {
      var j :| 0 <= j < |cart| && cart[j] == removed[k];
    }
  }

  lemma AddKeepsPositive(cart: Basket, item: MenuItem, portion: Portion, q: int)
    requires AllPositive(cart) && q >= 1
    ensures AllPositive(AddToCart(cart, item, portion, q))
  {
    var i := FindLine(cart, item.id, portion);
    if i >= 0 {
      assert AddToCart(cart, item, portion, q) == cart[i := cart[i].(quantity := cart[i].quantity + q)];
    }
  }

  /** If every add uses a positive quantity, every line keeps a quantity of at least one:
      updates to zero or below remove the line instead of storing it. */
  lemma OperationsKeepPositive(cart: Basket, item: MenuItem, id: string, portion: Portion, q: int, n: int)
    requires AllPositive(cart) && q >= 1
    ensures AllPositive(AddToCart(cart, item, portion, q))
    ensures AllPositive(UpdateQuantity(cart, id, portion, n))
    ensures AllPositive(RemoveFromCart(cart, id, portion))
    ensures AllPositive(ClearCart())
  {
    AddKeepsPositive(cart, item, portion, q);
    RemoveKeepsPositive(cart, id, portion);
  }

  // ---------------------------------------------------------------------------
  // The total

  lemma {:induction false} TotalConcat(a: Basket, b: Basket)
    ensures Total(a + b) == Total(a) + Total(b)
    decreases |b|
  {
    if |b| == 0 {
      assert a + b == a;
    } else {
      var b' := b[..|b| - 1];
      assert (a + b)[..|a + b| - 1] == a + b';
      TotalConcat(a, b');
    }
  }

  lemma TotalSingle(e: CartEntry)
    ensures Total([e]) == LineTotal(e)
  {
    assert [e][..0] == [];
  }

  /** Replacing one line changes the total by the difference of the two line totals. */
  lemma TotalReplace(cart: Basket, i: int, e: CartEntry)
    requires 0 <= i < |cart|
    ensures Total(cart[i := e]) == Total(cart) - LineTotal(cart[i]) + LineTotal(e)
  {
    assert cart == cart[..i] + [cart[i]] + cart[i + 1..];
    assert cart[i := e] == cart[..i] + [e] + cart[i + 1..];
    TotalConcat(cart[..i] + [cart[i]], cart[i + 1..]);
    TotalConcat(cart[..i], [cart[i]]);
    TotalConcat(cart[..i] + [e], cart[i + 1..]);
    TotalConcat(cart[..i], [e]);
    TotalSingle(cart[i]);
    TotalSingle(e);
  }

  lemma TotalAfterMerge(cart: Basket, i: int, quantity: int)
    requires 0 <= i < |cart|
    ensures Total(cart[i := cart[i].(quantity := cart[i].quantity + quantity)]) == Total(cart) + quantity * UnitPrice(cart[i])
  {
    var e := cart[i].(quantity := cart[i].quantity + quantity);
    TotalReplace(cart, i, e);
    var u := UnitPrice(cart[i]);
    assert UnitPrice(e) == u;
    assert u * (cart[i].quantity + quantity) == u * cart[i].quantity + u * quantity;
  }

  lemma TotalAfterAppend(cart: Basket, e: CartEntry)
    ensures Total(cart + [e]) == Total(cart) + LineTotal(e)
  {
    TotalConcat(cart, [e]);
    TotalSingle(e);
  }

  /** Adding `quantity` raises the total by `quantity` units: at the unit price of the existing line
      when the key is present (its snapshot, not the item passed in), else at the new line's. */
  lemma TotalAfterAdd(cart: Basket, item: MenuItem, portion: Portion, quantity: int)
    ensures var i := FindLine(cart, item.id, portion);
      Total(AddToCart(cart, item, portion, quantity))
        == Total(cart) + quantity * (if i >= 0 then UnitPrice(cart[i]) else UnitPrice(CartEntry(item, portion, quantity)))
  {
    var i := FindLine(cart, item.id, portion);
    if i >= 0 {
      assert AddToCart(cart, item, portion, quantity) == cart[i := cart[i].(quantity := cart[i].quantity + quantity)];
      TotalAfterMerge(cart, i, quantity);
    } else {
      var e := CartEntry(item, portion, quantity);
      assert AddToCart(cart, item, portion, quantity) == cart + [e];
      TotalAfterAppend(cart, e);
      assert LineTotal(e) == quantity * UnitPrice(e);
    }
  }

  /** Splicing out line `i` lowers the total by its line total. */
  lemma TotalSplice(cart: Basket, i: int)
    requires 0 <= i < |cart|
    ensures Total(cart[..i] + cart[i + 1..]) == Total(cart) - LineTotal(cart[i])
  {
    var a, e, b := cart[..i], cart[i], cart[i + 1..];
    var front := cart[..i + 1];
    assert front == a + [e];
    assert cart == front + b;
    TotalConcat(front, b);
    TotalAfterAppend(a, e);
    TotalConcat(a, b);
  }

  /** In a basket with unique keys, removing a line subtracts its line total. */
  lemma TotalAfterRemove(cart: Basket, i: int)
    requires UniqueLines(cart) && 0 <= i < |cart|
    ensures Total(RemoveFromCart(cart, cart[i].item.id, cart[i].portion)) == Total(cart) - LineTotal(cart[i])
  {
    RemoveAt(cart, i);
    TotalSplice(cart, i);
  }

  /** A cleared basket totals zero. */
  lemma TotalAfterClear()
    ensures Total(ClearCart()) == 0
  {
  }

  /** Adding item {id "1", price 220, half price 120} as one full portion totals 220; adding it again
      as two half portions makes a second line and a total of 220 + 2 * 120 = 460. */
  lemma TotalScenario(item: MenuItem)
    requires item.id == "1" && item.price == 220 && item.halfPrice == Some(120)
    ensures var c1 := AddToCart([], item, Full, 1);
      && Total(c1) == 220
      && var c2 := AddToCart(c1, item, Half, 2);
      && |c2| == 2 && Total(c2) == 460
  {
    var c1 := AddToCart([], item, Full, 1);
    TotalAfterAdd([], item, Full, 1);
    assert !HasLine(c1, item.id, Half);
    TotalAfterAdd(c1, item, Half, 2);
  }

  // ---------------------------------------------------------------------------
  // Repeated adds of one key

  /** Adding `item` in `portion` once per quantity in `qs`, left to right. */
  function AddEach(cart: Basket, item: MenuItem, portion: Portion, qs: seq<int>): Basket
  {
    if |qs| == 0 then cart
    else AddToCart(AddEach(cart, item, portion, qs[..|qs| - 1]), item, portion, qs[|qs| - 1])
  }

  function Sum(qs: seq<int>): int
  {
    if |qs| == 0 then 0 else Sum(qs[..|qs| - 1]) + qs[|qs| - 1]
  }

  /** Adding to the key of a basket's last line, absent from the lines before it, grows that line. */
  lemma AddToLast(cart: Basket, item: MenuItem, portion: Portion, n: int, q: int)
    requires !HasLine(cart, item.id, portion)
    ensures AddToCart(cart + [CartEntry(item, portion, n)], item, portion, q) == cart + [CartEntry(item, portion, n + q)]
  {
    var prev := cart + [CartEntry(item, portion, n)];
    assert Matches(prev[|cart|], item.id, portion);
    assert forall k :: 0 <= k < |cart| ==> prev[k] == cart[k];
    assert FindLine(prev, item.id, portion) == |cart|;
  }

  /** Any number of adds of a key that was absent leave exactly one line for it, at the end,
      whose quantity is the sum of the added quantities. */
  lemma {:induction false} RepeatedAddsMerge(cart: Basket, item: MenuItem, portion: Portion, qs: seq<int>)
    requires !HasLine(cart, item.id, portion) && |qs| > 0
    ensures AddEach(cart, item, portion, qs) == cart + [CartEntry(item, portion, Sum(qs))]
  {
    var init := qs[..|qs| - 1];
    if |init| == 0 {
      assert Sum(qs) == qs[0];
    } else {
      RepeatedAddsMerge(cart, item, portion, init);
      AddToLast(cart, item, portion, Sum(init), qs[|qs| - 1]);
    }
  }
}

=== FILE: cart_screen.dfy ===
/** The basket screen's decisions (src/screens/CartScreen.js): the -/+ quantity
    steppers, the checkout gate, and the price shown on each line. The
    confirmation dialogs are replaced by the button the user pressed. */
module CartScreen {
  import opened Catalog
  import opened Cart

  /** `handleQuantityChange(itemId, portion, change)`: look the line up; when it exists, ask for
      its current quantity plus `change`, which removes it if that is zero or less. */
  function QuantityChange(cart: Basket, id: string, portion: Portion, change: int): (r: Basket)
    ensures !HasLine(cart, id, portion) ==> r == cart
    ensures HasLine(cart, id, portion) ==>
      var q := cart[FindLine(cart, id, portion)].quantity + change;
      && (q <= 0 ==> r == RemoveFromCart(cart, id, portion))
      && (q > 0 ==> |r| == |cart| && forall k :: 0 <= k < |cart| ==>
            r[k] == if Matches(cart[k], id, portion) then cart[k].(quantity := q) else cart[k])
  {
    var i := FindLine(cart, id, portion);
    if i == -1 then cart else UpdateQuantity(cart, id, portion, cart[i].quantity + change)
  }

  /** In a basket with unique keys, line `i` is the one found for its own key. */
  lemma FindUnique(cart: Basket, i: int)
    requires UniqueLines(cart) && 0 <= i < |cart|
    ensures FindLine(cart, cart[i].item.id, cart[i].portion) == i
  {
    UniqueOthers(cart, i);
  }

  /** In a basket with unique keys, a step on line `i` either sets its quantity to the old one plus
      `change`, or, when that is zero or less, splices the line out. */
  lemma StepAt(cart: Basket, i: int, change: int)
    requires UniqueLines(cart) && 0 <= i < |cart|
    ensures var q := cart[i].quantity + change;
      QuantityChange(cart, cart[i].item.id, cart[i].portion, change)
        == if q <= 0 then cart[..i] + cart[i + 1..] else cart[i := cart[i].(quantity := q)]
  {
    FindUnique(cart, i);
    if cart[i].quantity + change <= 0 {
      RemoveAt(cart, i);
    } else {
      UpdateAt(cart, i, cart[i].quantity + change);
    }
  }

  /** Pressing + and then - on a line restores the basket. */
  lemma StepUpThenDown(cart: Basket, i: int)
    requires UniqueLines(cart) && AllPositive(cart) && 0 <= i < |cart|
    ensures var id, portion := cart[i].item.id, cart[i].portion;
      QuantityChange(QuantityChange(cart, id, portion, 1), id, portion, -1) == cart
  {
    var id, portion := cart[i].item.id, cart[i].portion;
    StepAt(cart, i, 1);
    var up := QuantityChange(cart, id, portion, 1);
    assert up == cart[i := cart[i].(quantity := cart[i].quantity + 1)];
    UpdateKeepsUnique(cart, id, portion, cart[i].quantity + 1);
    StepAt(up, i, -1);
    assert up[i := up[i].(quantity := cart[i].quantity)] == cart;
  }

  /** Pressing - on a line whose quantity is 1 removes the line. */
  lemma StepDownAtOne(cart: Basket, i: int)
    requires UniqueLines(cart) && 0 <= i < |cart| && cart[i].quantity == 1
    ensures QuantityChange(cart, cart[i].item.id, cart[i].portion, -1) == cart[..i] + cart[i + 1..]
    ensures QuantityChange(cart, cart[i].item.id, cart[i].portion, -1) == RemoveFromCart(cart, cart[i].item.id, cart[i].portion)
  {
    StepAt(cart, i, -1);
    RemoveAt(cart, i);
  }

  /** The steppers keep keys unique and every quantity at least one, whatever the step. */
  lemma StepKeepsInvariants(cart: Basket, id: string, portion: Portion, change: int)
    requires UniqueLines(cart) && AllPositive(cart)
    ensures UniqueLines(QuantityChange(cart, id, portion, change))
    ensures AllPositive(QuantityChange(cart, id, portion, change))
  {
    var i := FindLine(cart, id, portion);
    if i != -1 {
      UpdateKeepsUnique(cart, id, portion, cart[i].quantity + change);
      OperationsKeepPositive(cart, cart[i].item, id, portion, 1, cart[i].quantity + change);
    }
  }

  /** The delivery form. */
  datatype DeliveryDetails = DeliveryDetails(name: string, address: string, phone: string, instructions: string)

  /** Name, address and phone are filled in; instructions are optional. */
  predicate DetailsComplete(d: DeliveryDetails)
  {
    d.name != "" && d.address != "" && d.phone != ""
  }

  /** How a checkout attempt ended: refused for missing details or an empty basket, cancelled at
      the confirmation, or placed for the shown total. */
  datatype CheckoutStatus = IncompleteDetails | EmptyCart | Cancelled | Placed(total: int)

  datatype CheckoutOutcome = CheckoutOutcome(status: CheckoutStatus, cart: Basket)

  /** `handleCheckout()`. `confirmed` is "Confirm Order" (rather than "Cancel") on the first dialog and
      `acknowledged` is "OK" on the second; only that last button clears the basket. */
  function Checkout(cart: Basket, d: DeliveryDetails, confirmed: bool, acknowledged: bool): (r: CheckoutOutcome)
    ensures r.status == IncompleteDetails <==> !DetailsComplete(d)
    ensures r.status == EmptyCart <==> DetailsComplete(d) && |cart| == 0
    ensures r.status == Cancelled <==> DetailsComplete(d) && |cart| > 0 && !confirmed
    ensures r.status.Placed? <==> DetailsComplete(d) && |cart| > 0 && confirmed
    ensures r.status.Placed? ==> r.status.total == Total(cart)
    ensures r.cart == [] || r.cart == cart
    ensures r.cart != cart <==> r.status.Placed? && acknowledged
  {
    if !DetailsComplete(d) then CheckoutOutcome(IncompleteDetails, cart)
    else if |cart| == 0 then CheckoutOutcome(EmptyCart, cart)
    else if !confirmed then CheckoutOutcome(Cancelled, cart)
    else CheckoutOutcome(Placed(Total(cart)), if acknowledged then ClearCart() else cart)
  }

  /** The instructions field never affects checkout, and with an incomplete form the details complaint
      comes first even for an empty basket. */
  lemma CheckoutGate(cart: Basket, d: DeliveryDetails, instructions: string, confirmed: bool, acknowledged: bool)
    ensures Checkout(cart, d.(instructions := instructions), confirmed, acknowledged) == Checkout(cart, d, confirmed, acknowledged)
    ensures !DetailsComplete(d) ==> Checkout([], d, confirmed, acknowledged).status == IncompleteDetails
  {
  }

  /** The price shown on a basket line. */
  function DisplayedLinePrice(e: CartEntry): (r: int)
    ensures r == UnitPrice(e)
    ensures e.portion == Full ==> r == e.item.price
    ensures r != e.item.price ==> e.portion == Half && HasHalfPrice(e.item) && r == e.item.halfPrice.value
  {
    match e.portion
    case Half => if e.item.halfPrice.Some? && e.item.halfPrice.value != 0 then e.item.halfPrice.value else e.item.price
    case Full => e.item.price
  }
}

=== FILE: catalog.dfy ===
/** The menu catalog (src/context/MenuContext.js): categories holding ordered
    items, and the three mutations the admin screen uses. Every mutation maps
    over all categories, touches only those whose id matches, and is silently
    a no-op when nothing matches. */
module Catalog {
  import opened Options
  import opened Seqs

  datatype MenuItem = MenuItem(
    id: string,
    name: string,
    description: string,
    price: int,
    halfPrice: Option<int>,
    image: string,
    cookingTime: string,
    spicyLevel: int,
    isVeg: bool,
    available: bool)

  datatype Category = Category(id: string, name: string, items: seq<MenuItem>)

  type Menu = seq<Category>

  /** `item.halfPrice` is truthy in JavaScript: present and not zero. */
  predicate HasHalfPrice(item: MenuItem)
    ensures HasHalfPrice(item) ==> item.halfPrice.Some?
    ensures item.halfPrice == None ==> !HasHalfPrice(item)
    ensures item.halfPrice == Some(0) ==> !HasHalfPrice(item)
    ensures item.halfPrice.Some? && item.halfPrice.value > 0 ==> HasHalfPrice(item)
  {
    item.halfPrice.Some? && item.halfPrice.value != 0
  }

  /** The fields named by an `updatedFields` object; `None` marks a field it does not name. */
  datatype ItemPatch = ItemPatch(
    id: Option<string>,
    name: Option<string>,
    description: Option<string>,
    price: Option<int>,
    halfPrice: Option<Option<int>>,
    image: Option<string>,
    cookingTime: Option<string>,
    spicyLevel: Option<int>,
    isVeg: Option<bool>,
    available: Option<bool>)

  /** The empty object `{}`. */
  const NoFields := ItemPatch(None, None, None, None, None, None, None, None, None, None)

  /** `{ available: b }` */
  function SetAvailable(b: bool): ItemPatch { NoFields.(available := Some(b)) }

  /** `{ price: p }` */
  function SetPrice(p: int): ItemPatch { NoFields.(price := Some(p)) }

  /** `{ halfPrice: h }` */
  function SetHalfPrice(h: int): ItemPatch { NoFields.(halfPrice := Some(Some(h))) }

  function Override<T>(named: Option<T>, current: T): T
  {
    if named.Some? then named.value else current
  }

  /** `{ ...item, ...patch }`: the named fields take the patch's values, the others keep the item's. */
  function Merge(item: MenuItem, patch: ItemPatch): (r: MenuItem)
    ensures patch == NoFields ==> r == item
    ensures forall b :: patch == SetAvailable(b) ==> r == item.(available := b)
    ensures forall p :: patch == SetPrice(p) ==> r == item.(price := p)
    ensures forall h :: patch == SetHalfPrice(h) ==> r == item.(halfPrice := Some(h))
  {
    MenuItem(
      Override(patch.id, item.id),
      Override(patch.name, item.name),
      Override(patch.description, item.description),
      Override(patch.price, item.price),
      Override(patch.halfPrice, item.halfPrice),
      Override(patch.image, item.image),
      Override(patch.cookingTime, item.cookingTime),
      Override(patch.spicyLevel, item.spicyLevel),
      Override(patch.isVeg, item.isVeg),
      Override(patch.available, item.available))
  }

  /** Merging the empty object changes nothing; merging the same object twice is merging it once;
      the three single-field objects the admin screen sends change exactly their one field. */
  lemma MergeLaws(item: MenuItem, patch: ItemPatch, b: bool, p: int, h: int)
    ensures Merge(item, NoFields) == item
    ensures Merge(Merge(item, patch), patch) == Merge(item, patch)
    ensures Merge(item, SetAvailable(b)) == item.(available := b)
    ensures Merge(item, SetPrice(p)) == item.(price := p)
    ensures Merge(item, SetHalfPrice(h)) == item.(halfPrice := Some(h))
  {
  }

  /** The categories of `a` and `b` agree in number, order, ids and names. */
  predicate SameCategories(a: Menu, b: Menu)
  {
    && |a| == |b|
    && forall i :: 0 <= i < |a| ==> a[i].id == b[i].id && a[i].name == b[i].name
  }

  /** Some category with id `categoryId` exists. */
  predicate HasCategory(menu: Menu, categoryId: string)
  {
    exists i :: 0 <= i < |menu| && menu[i].id == categoryId
  }

  /** Some category with id `categoryId` holds an item with id `itemId`. */
  predicate HasItem(menu: Menu, categoryId: string, itemId: string)
  {
    exists i, j :: 0 <= i < |menu| && menu[i].id == categoryId && 0 <= j < |menu[i].items| && menu[i].items[j].id == itemId
  }

  /** Every item of every category, category by category (`menu.flatMap(category => category.items)`). */
  function AllItems(menu: Menu): (r: seq<MenuItem>)
    ensures forall i, j :: 0 <= i < |menu| && 0 <= j < |menu[i].items| ==> menu[i].items[j] in r
    ensures forall x :: x in r ==> exists i :: 0 <= i < |menu| && x in menu[i].items
  {
    if |menu| == 0 then []
    else
      assert forall i :: 1 <= i < |menu| ==> menu[i] == menu[1..][i - 1];
      menu[0].items + AllItems(menu[1..])
  }

  lemma {:induction false} AllItemsConcat(a: Menu, b: Menu)
    ensures AllItems(a + b) == AllItems(a) + AllItems(b)
    decreases |a|
  {
    if |a| == 0 {
      assert a + b == b;
    } else {
      assert (a + b)[1..] == a[1..] + b;
      AllItemsConcat(a[1..], b);
    }
  }

  /** No two items anywhere in the menu share an id. */
  predicate UniqueItemIds(menu: Menu)
  {
    var all := AllItems(menu);
    forall i, j :: 0 <= i < j < |all| ==> all[i].id != all[j].id
  }

  function PatchIfId(itemId: string, patch: ItemPatch): MenuItem -> MenuItem
  {
    (item: MenuItem) => if item.id == itemId then Merge(item, patch) else item
  }

  function UpdateIn(categoryId: string, itemId: string, patch: ItemPatch): Category -> Category
  {
    (c: Category) => if c.id == categoryId then c.(items := Map(PatchIfId(itemId, patch), c.items)) else c
  }

  /** `updateItem(categoryId, itemId, updatedFields)`. */
  function UpdateItem(menu: Menu, categoryId: string, itemId: string, patch: ItemPatch): (r: Menu)
    ensures SameCategories(menu, r)
    ensures forall i :: 0 <= i < |menu| && menu[i].id != categoryId ==> r[i] == menu[i]
    ensures forall i :: 0 <= i < |menu| && menu[i].id == categoryId ==> |r[i].items| == |menu[i].items|
    ensures forall i, j :: 0 <= i < |menu| && menu[i].id == categoryId && 0 <= j < |menu[i].items| ==>
      r[i].items[j] == (if menu[i].items[j].id == itemId then Merge(menu[i].items[j], patch) else menu[i].items[j])
  {
    Map(UpdateIn(categoryId, itemId, patch), menu)
  }

  /** An update that names a missing category or item leaves the menu as it was. */
  lemma UpdateItemMissing(menu: Menu, categoryId: string, itemId: string, patch: ItemPatch)
    requires !HasItem(menu, categoryId, itemId)
    ensures UpdateItem(menu, categoryId, itemId, patch) == menu
  {
    var r := UpdateItem(menu, categoryId, itemId, patch);
    forall i | 0 <= i < |menu|
      ensures r[i] == menu[i]
    {
      if menu[i].id == categoryId {
        assert forall j :: 0 <= j < |menu[i].items| ==> menu[i].items[j].id != itemId;
        assert r[i].items == menu[i].items;
      }
    }
  }

  /** Category `i` is the only one with its id, and item `k` the only one with its id inside it. */
  predicate LocatedAt(menu: Menu, i: int, k: int)
  {
    && 0 <= i < |menu| && 0 <= k < |menu[i].items|
    && (forall c :: 0 <= c < |menu| && c != i ==> menu[c].id != menu[i].id)
    && (forall j :: 0 <= j < |menu[i].items| && j != k ==> menu[i].items[j].id != menu[i].items[k].id)
  }

  /** With unambiguous ids, an update replaces exactly one item by its merge with the patch. */
  lemma UpdateItemAt(menu: Menu, i: int, k: int, patch: ItemPatch)
    requires LocatedAt(menu, i, k)
    ensures var items := menu[i].items;
      UpdateItem(menu, menu[i].id, items[k].id, patch) == menu[i := menu[i].(items := items[k := Merge(items[k], patch)])]
  {
    var items := menu[i].items;
    var r := UpdateItem(menu, menu[i].id, items[k].id, patch);
    assert r[i].items == items[k := Merge(items[k], patch)];
  }

  function AppendIn(categoryId: string, newItem: MenuItem): Category -> Category
  {
    (c: Category) => if c.id == categoryId then c.(items := c.items + [newItem]) else c
  }

  /** `addItem(categoryId, newItem)`. */
  function AddItem(menu: Menu, categoryId: string, newItem: MenuItem): (r: Menu)
    ensures SameCategories(menu, r)
    ensures forall i :: 0 <= i < |menu| && menu[i].id != categoryId ==> r[i] == menu[i]
    ensures forall i :: 0 <= i < |menu| && menu[i].id == categoryId ==>
      |r[i].items| == |menu[i].items| + 1 && r[i].items[..|menu[i].items|] == menu[i].items && r[i].items[|menu[i].items|] == newItem
  {
    Map(AppendIn(categoryId, newItem), menu)
  }

  /** Adding to a category that does not exist leaves the menu as it was. */
  lemma AddItemMissing(menu: Menu, categoryId: string, newItem: MenuItem)
    requires !HasCategory(menu, categoryId)
    ensures AddItem(menu, categoryId, newItem) == menu
  {
  }

  function IdIsNot(itemId: string): MenuItem -> bool
  {
    (item: MenuItem) => item.id != itemId
  }

  function FilterIn(categoryId: string, itemId: string): Category -> Category
  {
    (c: Category) => if c.id == categoryId then c.(items := Filter(IdIsNot(itemId), c.items)) else c
  }

  /** `removeItem(categoryId, itemId)`. */
  function RemoveItem(menu: Menu, categoryId: string, itemId: string): (r: Menu)
    ensures SameCategories(menu, r)
    ensures forall i :: 0 <= i < |menu| && menu[i].id != categoryId ==> r[i] == menu[i]
    ensures forall i :: 0 <= i < |menu| && menu[i].id == categoryId ==>
      r[i].items == Filter(IdIsNot(itemId), menu[i].items)
  {
    Map(FilterIn(categoryId, itemId), menu)
  }

  /** In a matching category, removal deletes every item with that id and keeps the others, in order. */
  lemma RemoveItemEffect(menu: Menu, categoryId: string, itemId: string, i: int)
    requires 0 <= i < |menu| && menu[i].id == categoryId
    ensures var r := RemoveItem(menu, categoryId, itemId);
      && (forall k :: 0 <= k < |r[i].items| ==> r[i].items[k].id != itemId)
      && (forall k :: 0 <= k < |menu[i].items| && menu[i].items[k].id != itemId ==> menu[i].items[k] in r[i].items)
      && IsSubseq(r[i].items, menu[i].items)
  {
    FilterIsSubseq(IdIsNot(itemId), menu[i].items);
  }

  /** Removing an item that is not there leaves the menu as it was. */
  lemma RemoveItemMissing(menu: Menu, categoryId: string, itemId: string)
    requires !HasItem(menu, categoryId, itemId)
    ensures RemoveItem(menu, categoryId, itemId) == menu
  {
    var r := RemoveItem(menu, categoryId, itemId);
    forall i | 0 <= i < |menu|
      ensures r[i] == menu[i]
    {
      if menu[i].id == categoryId {
        assert forall j :: 0 <= j < |menu[i].items| ==> menu[i].items[j].id != itemId;
        FilterKeepsAll(IdIsNot(itemId), menu[i].items);
      }
    }
  }

  lemma FilterOutUnique(items: seq<MenuItem>, k: int)
    requires 0 <= k < |items|
    requires forall j :: 0 <= j < |items| && j != k ==> items[j].id != items[k].id
    ensures Filter(IdIsNot(items[k].id), items) == items[..k] + items[k + 1..]
  {
    FilterSplice(IdIsNot(items[k].id), items, k);
  }

  /** With unambiguous ids, removal splices exactly one item out of its category. */
  lemma RemoveItemAt(menu: Menu, i: int, k: int)
    requires LocatedAt(menu, i, k)
    ensures var items := menu[i].items;
      RemoveItem(menu, menu[i].id, items[k].id) == menu[i := menu[i].(items := items[..k] + items[k + 1..])]
  {
    var items := menu[i].items;
    FilterOutUnique(items, k);
    var r := RemoveItem(menu, menu[i].id, items[k].id);
    assert r[i].items == items[..k] + items[k + 1..];
  }

  /** Adding an item whose id is new to its category, then removing that id, restores the menu. */
  lemma AddThenRemove(menu: Menu, categoryId: string, newItem: MenuItem)
    requires !HasItem(menu, categoryId, newItem.id)
    ensures RemoveItem(AddItem(menu, categoryId, newItem), categoryId, newItem.id) == menu
  {
    var added := AddItem(menu, categoryId, newItem);
    var r := RemoveItem(added, categoryId, newItem.id);
    forall i | 0 <= i < |menu|
      ensures r[i] == menu[i]
    {
      if menu[i].id == categoryId {
        assert added[i].items == menu[i].items + [newItem];
        FilterConcat(IdIsNot(newItem.id), menu[i].items, [newItem]);
        assert forall j :: 0 <= j < |menu[i].items| ==> menu[i].items[j].id != newItem.id;
        FilterKeepsAll(IdIsNot(newItem.id), menu[i].items);
        assert Filter(IdIsNot(newItem.id), [newItem]) == [];
      }
    }
  }
}

=== FILE: home_screen.dfy ===
/** The landing page's derived figures (src/screens/HomeScreen.js): the
    featured strip (each category's first two available items, categories in
    order), the available-item count on each category card, and the number
    shown as "Items in Cart". */
module HomeScreen {
  import opened Seqs
  import opened Catalog
  import opened Cart

  const IsAvailable: MenuItem -> bool := (x: MenuItem) => x.available

  /** The number of available items, counted one by one. */
  function CountAvailable(items: seq<MenuItem>): nat
  {
    if |items| == 0 then 0 else (if items[0].available then 1 else 0) + CountAvailable(items[1..])
  }

  /** Filtering for availability keeps exactly as many items as the count finds. */
  lemma {:induction false} FilterAvailableCount(items: seq<MenuItem>)
    ensures |Filter(IsAvailable, items)| == CountAvailable(items)
  {
    if |items| > 0 {
      FilterAvailableCount(items[1..]);
    }
  }

  /** The number on a category card: how many of its items are available. */
  function AvailableCount(c: Category): (r: nat)
    ensures r == CountAvailable(c.items)
    ensures r <= |c.items|
    ensures r == |c.items| <==> forall k :: 0 <= k < |c.items| ==> c.items[k].available
    ensures r == 0 <==> forall k :: 0 <= k < |c.items| ==> !c.items[k].available
  {
    FilterLength(IsAvailable, c.items);
    FilterAvailableCount(c.items);
    |Filter(IsAvailable, c.items)|
  }

  /** One category's share of the featured strip: its available items, cut to the first two. */
  function FeaturedOf(c: Category): (r: seq<MenuItem>)
    ensures |r| == if AvailableCount(c) < 2 then AvailableCount(c) else 2
    ensures forall k :: 0 <= k < |r| ==> r[k].available && r[k] in c.items
    ensures IsSubseq(r, c.items)
  {
    var avail := Filter(IsAvailable, c.items);
    var r := Take(avail, 2);
    FilterIsSubseq(IsAvailable, c.items);
    PrefixIsSubseq(avail, |r|);
    SubseqTrans(r, avail, c.items);
    r
  }

  /** `featuredItems`: every category's share, in category order. */
  function FeaturedItems(menu: Menu): (r: seq<MenuItem>)
    ensures forall k :: 0 <= k < |r| ==> r[k].available
    ensures |r| <= 2 * |menu|
    ensures IsSubseq(r, AllItems(menu))
  {
    if |menu| == 0 then []
    else
      var head := FeaturedOf(menu[0]);
      var rest := FeaturedItems(menu[1..]);
      SubseqConcat(head, menu[0].items, rest, AllItems(menu[1..]));
      head + rest
  }

  /** A direct scan: take available items from the front until `n` have been taken. */
  function FirstAvailable(items: seq<MenuItem>, n: nat): seq<MenuItem>
  {
    if n == 0 || |items| == 0 then []
    else if items[0].available then [items[0]] + FirstAvailable(items[1..], n - 1)
    else FirstAvailable(items[1..], n)
  }

  /** Cutting the filtered list is the same as scanning for the first `n` available items. */
  lemma {:induction false} TakeFilterIsScan(items: seq<MenuItem>, n: nat)
    ensures Take(Filter(IsAvailable, items), n) == FirstAvailable(items, n)
  {
    if n > 0 && |items| > 0 {
      TakeFilterIsScan(items[1..], if items[0].available then n - 1 else n);
      var rest := Filter(IsAvailable, items[1..]);
      if items[0].available {
        assert Filter(IsAvailable, items) == [items[0]] + rest;
        assert Take([items[0]] + rest, n) == [items[0]] + Take(rest, n - 1);
      }
    }
  }

  /** Each category contributes its first two available items, found by scanning. */
  lemma FeaturedIsScan(menu: Menu)
    ensures FeaturedItems(menu) == if |menu| == 0 then [] else FirstAvailable(menu[0].items, 2) + FeaturedItems(menu[1..])
  {
    if |menu| > 0 {
      TakeFilterIsScan(menu[0].items, 2);
    }
  }

  /** When every category has at least two available items the strip holds exactly two per category. */
  lemma {:induction false} FeaturedCounts(menu: Menu)
    requires forall i :: 0 <= i < |menu| ==> AvailableCount(menu[i]) >= 2
    ensures |FeaturedItems(menu)| == 2 * |menu|
  {
    if |menu| > 0 {
      assert forall i :: 1 <= i < |menu| ==> menu[i] == menu[1..][i - 1];
      FeaturedCounts(menu[1..]);
    }
  }

  /** Sum of the quantities of the lines. */
  function TotalQuantity(cart: Basket): int
  {
    if |cart| == 0 then 0 else cart[0].quantity + TotalQuantity(cart[1..])
  }

  /** The "Items in Cart" figure: the number of lines, never more than the number of units. */
  function CartCountStat(cart: Basket): (r: nat)
    ensures r == |cart|
    ensures AllPositive(cart) ==> r <= TotalQuantity(cart)
    ensures AllPositive(cart) ==> (r == TotalQuantity(cart) <==> forall k :: 0 <= k < |cart| ==> cart[k].quantity == 1)
    ensures r == 0 <==> cart == []
  {
    CountBelowQuantity(cart);
    CountEqualsQuantity(cart);
    |cart|
  }

  lemma {:induction false} CountBelowQuantity(cart: Basket)
    ensures AllPositive(cart) ==> |cart| <= TotalQuantity(cart)
  {
    if |cart| > 0 {
      assert AllPositive(cart) ==> AllPositive(cart[1..]) by {
        if AllPositive(cart) {
          forall i | 0 <= i < |cart[1..]|
            ensures cart[1..][i].quantity >= 1
          {
            assert cart[1..][i] == cart[i + 1];
          }
        }
      }
      CountBelowQuantity(cart[1..]);
    }
  }

  /** With positive quantities, lines and units agree exactly when every line holds one unit. */
  lemma {:induction false} CountEqualsQuantity(cart: Basket)
    ensures AllPositive(cart) ==> (|cart| == TotalQuantity(cart) <==> forall k :: 0 <= k < |cart| ==> cart[k].quantity == 1)
  {
    if |cart| > 0 && AllPositive(cart) {
      var rest := cart[1..];
      assert forall k :: 0 <= k < |rest| ==> rest[k] == cart[k + 1];
      assert AllPositive(rest);
      CountBelowQuantity(rest);
      CountEqualsQuantity(rest);
      assert cart[0].quantity >= 1;
      if |cart| == TotalQuantity(cart) {
        assert cart[0].quantity == 1;
        assert forall k :: 0 <= k < |cart| ==> cart[k].quantity == 1 by {
          forall k | 0 <= k < |cart|
            ensures cart[k].quantity == 1
          {
            if k > 0 {
              assert cart[k] == rest[k - 1];
            }
          }
        }
      }
    }
  }

  /** Adding the same item twice shows one line but two units. */
  lemma CartCountScenario(item: MenuItem)
    ensures var cart := AddToCart(AddToCart([], item, Full, 1), item, Full, 1);
      CartCountStat(cart) == 1 && TotalQuantity(cart) == 2
  {
    var once := AddToCart([], item, Full, 1);
    assert once == [CartEntry(item, Full, 1)];
    assert FindLine(once, item.id, Full) == 0;
  }
}

=== FILE: menu_screen.dfy ===
/** The menu browser's `filteredMenu` (src/screens/MenuScreen.js): a category
    selection, then a case-insensitive search over names and descriptions, then
    a veg / non-veg filter. The search and veg steps each drop the categories
    they leave empty; the category step alone does not. The pipeline is proved
    equal to a one-pass reference definition, from which its properties follow. */
module MenuScreen {
  import opened Seqs
  import opened Text
  import opened Catalog

  /** The value meaning "no restriction" for both the category and the veg selector. */
  const All := "all"
  const VegOnly := "veg"

  /** The three pieces of screen state the pipeline reads. */
  datatype MenuFilter = MenuFilter(category: string, query: string, veg: string)

  const NoFilter := MenuFilter(All, "", All)

  /** The lower-cased name or description contains the lower-cased query. */
  predicate MatchesQuery(item: MenuItem, query: string)
  {
    Includes(Lower(item.name), Lower(query)) || Includes(Lower(item.description), Lower(query))
  }

  /** `'veg'` keeps vegetarian items; every other value keeps the others. */
  predicate MatchesVeg(item: MenuItem, veg: string)
  {
    if veg == VegOnly then item.isVeg else !item.isVeg
  }

  function IdIs(categoryId: string): Category -> bool
  {
    (c: Category) => c.id == categoryId
  }

  function QueryMatcher(query: string): MenuItem -> bool
  {
    (item: MenuItem) => MatchesQuery(item, query)
  }

  function VegMatcher(veg: string): MenuItem -> bool
  {
    (item: MenuItem) => MatchesVeg(item, veg)
  }

  function NarrowBy(p: MenuItem -> bool): Category -> Category
  {
    (c: Category) => c.(items := Filter(p, c.items))
  }

  const NonEmpty: Category -> bool := (c: Category) => |c.items| > 0

  /** One pruning step: filter every category's items by `p`, then drop the categories left empty. */
  function Refine(cats: Menu, p: MenuItem -> bool): (r: Menu)
    ensures |r| <= |cats|
    ensures forall k :: 0 <= k < |r| ==> |r[k].items| > 0
    ensures forall k :: 0 <= k < |r| ==> exists j :: 0 <= j < |cats| && r[k] == cats[j].(items := Filter(p, cats[j].items))
  {
    Filter(NonEmpty, Map(NarrowBy(p), cats))
  }

  /** `filteredMenu`, step by step as the screen computes it. */
  function FilteredMenu(menu: Menu, f: MenuFilter): (r: Menu)
    ensures |r| <= |menu|
    ensures forall k :: 0 <= k < |r| ==> Selects(f, r[k])
    ensures Prunes(f) ==> forall k :: 0 <= k < |r| ==> |r[k].items| > 0
  {
    var byCategory := if f.category != All then Filter(IdIs(f.category), menu) else menu;
    var bySearch := if f.query != "" then Refine(byCategory, QueryMatcher(f.query)) else byCategory;
    if f.veg != All then Refine(bySearch, VegMatcher(f.veg)) else bySearch
  }

  // The reference definition: one decision per category.

  /** The category selector admits category `c`. */
  predicate Selects(f: MenuFilter, c: Category)
  {
    f.category == All || c.id == f.category
  }

  /** The search and veg selectors together admit `item`. */
  predicate Keeps(f: MenuFilter, item: MenuItem)
  {
    && (f.query == "" || MatchesQuery(item, f.query))
    && (f.veg == All || MatchesVeg(item, f.veg))
  }

  /** Some step that drops empty categories is active. */
  predicate Prunes(f: MenuFilter)
  {
    f.query != "" || f.veg != All
  }

  function KeepsFor(f: MenuFilter): MenuItem -> bool
  {
    (item: MenuItem) => Keeps(f, item)
  }

  /** Category `c` with only the items `f` keeps. */
  function Narrow(f: MenuFilter, c: Category): (r: Category)
    ensures r.id == c.id && r.name == c.name
    ensures forall k :: 0 <= k < |r.items| ==> r.items[k] in c.items && Keeps(f, r.items[k])
    ensures forall k :: 0 <= k < |c.items| && Keeps(f, c.items[k]) ==> c.items[k] in r.items
  {
    c.(items := Filter(KeepsFor(f), c.items))
  }

  /** Category `c` appears in the result: it is selected and, when a pruning step is active, keeps an item. */
  predicate Shown(f: MenuFilter, c: Category)
  {
    Selects(f, c) && (!Prunes(f) || |Narrow(f, c).items| > 0)
  }

  /** The reference: each shown category, narrowed, in menu order. */
  function ReferenceMenu(menu: Menu, f: MenuFilter): Menu
  {
    if |menu| == 0 then []
    else (if Shown(f, menu[0]) then [Narrow(f, menu[0])] else []) + ReferenceMenu(menu[1..], f)
  }

  lemma {:induction false} ReferenceMenuConcat(a: Menu, b: Menu, f: MenuFilter)
    ensures ReferenceMenu(a + b, f) == ReferenceMenu(a, f) + ReferenceMenu(b, f)
    decreases |a|
  {
    if |a| == 0 {
      assert a + b == b;
    } else {
      assert (a + b)[0] == a[0];
      assert (a + b)[1..] == a[1..] + b;
      ReferenceMenuConcat(a[1..], b, f);
    }
  }

  lemma RefineConcat(a: Menu, b: Menu, p: MenuItem -> bool)
    ensures Refine(a + b, p) == Refine(a, p) + Refine(b, p)
  {
    MapConcat(NarrowBy(p), a, b);
    FilterConcat(NonEmpty, Map(NarrowBy(p), a), Map(NarrowBy(p), b));
  }

  lemma FilteredMenuConcat(a: Menu, b: Menu, f: MenuFilter)
    ensures FilteredMenu(a + b, f) == FilteredMenu(a, f) + FilteredMenu(b, f)
  {
    var ca := if f.category != All then Filter(IdIs(f.category), a) else a;
    var cb := if f.category != All then Filter(IdIs(f.category), b) else b;
    if f.category != All {
      FilterConcat(IdIs(f.category), a, b);
    }
    var sa := if f.query != "" then Refine(ca, QueryMatcher(f.query)) else ca;
    var sb := if f.query != "" then Refine(cb, QueryMatcher(f.query)) else cb;
    if f.query != "" {
      RefineConcat(ca, cb, QueryMatcher(f.query));
    }
    if f.veg != All {
      RefineConcat(sa, sb, VegMatcher(f.veg));
    }
  }

  /** One pruning step on one category keeps it, narrowed, exactly when something survives. */
  lemma RefineSingle(c: Category, p: MenuItem -> bool)
    ensures Refine([c], p) == if |Filter(p, c.items)| > 0 then [c.(items := Filter(p, c.items))] else []
  {
    assert Map(NarrowBy(p), [c]) == [c.(items := Filter(p, c.items))];
  }

  /** Filtering with `p` where `p` and `Keeps(f, ·)` agree on every item. */
  lemma KeepsAgree(f: MenuFilter, p: MenuItem -> bool, items: seq<MenuItem>)
    requires forall item :: p(item) == Keeps(f, item)
    ensures Filter(p, items) == Filter(KeepsFor(f), items)
  {
    FilterExt(p, KeepsFor(f), items);
  }

  lemma FilteredMenuSingle(c: Category, f: MenuFilter)
    ensures FilteredMenu([c], f) == ReferenceMenu([c], f)
  {
    var reference := ReferenceMenu([c], f);
    assert [c][1..] == [];
    assert ReferenceMenu([c][1..], f) == [];
    assert reference == if Shown(f, c) then [Narrow(f, c)] else [];
    var byCategory := if f.category != All then Filter(IdIs(f.category), [c]) else [c];
    assert byCategory == if Selects(f, c) then [c] else [];
    if !Selects(f, c) {
      assert byCategory == [];
    } else if f.query == "" && f.veg == All {
      FilterKeepsAll(KeepsFor(f), c.items);
    } else if f.query != "" && f.veg == All {
      RefineSingle(c, QueryMatcher(f.query));
      KeepsAgree(f, QueryMatcher(f.query), c.items);
    } else if f.query == "" && f.veg != All {
      RefineSingle(c, VegMatcher(f.veg));
      KeepsAgree(f, VegMatcher(f.veg), c.items);
    } else {
      var qm := QueryMatcher(f.query);
      var vm := VegMatcher(f.veg);
      RefineSingle(c, qm);
      FilterFilter(qm, vm, KeepsFor(f), c.items);
      if |Filter(qm, c.items)| > 0 {
        RefineSingle(c.(items := Filter(qm, c.items)), vm);
      } else {
        assert Filter(vm, Filter(qm, c.items)) == [];
      }
    }
  }

  /** The screen's three-step pipeline computes the one-pass reference. */
  lemma {:induction false} FilteredMenuIsReference(menu: Menu, f: MenuFilter)
    ensures FilteredMenu(menu, f) == ReferenceMenu(menu, f)
  {
    if |menu| > 0 {
      assert menu == [menu[0]] + menu[1..];
      FilteredMenuConcat([menu[0]], menu[1..], f);
      ReferenceMenuConcat([menu[0]], menu[1..], f);
      FilteredMenuSingle(menu[0], f);
      FilteredMenuIsReference(menu[1..], f);
    }
  }

  /** With no selection, no query and veg filter `'all'`, the menu is shown as it is. */
  lemma NoFilterIsIdentity(menu: Menu)
    ensures FilteredMenu(menu, NoFilter) == menu
  {
  }

  /** A category of the result: the narrowed form of a selected category of the menu, non-empty
      when a search or veg filter is active. */
  lemma {:induction false} ReferenceMenuSound(menu: Menu, f: MenuFilter, c: Category)
    requires c in ReferenceMenu(menu, f)
    ensures exists i :: 0 <= i < |menu| && Shown(f, menu[i]) && c == Narrow(f, menu[i])
  {
    if c == Narrow(f, menu[0]) && Shown(f, menu[0]) {
    } else {
      ReferenceMenuSound(menu[1..], f, c);
      var i :| 0 <= i < |menu[1..]| && Shown(f, menu[1..][i]) && c == Narrow(f, menu[1..][i]);
      assert menu[i + 1] == menu[1..][i];
    }
  }

  lemma {:induction false} ReferenceMenuComplete(menu: Menu, f: MenuFilter, i: int)
    requires 0 <= i < |menu| && Shown(f, menu[i])
    ensures Narrow(f, menu[i]) in ReferenceMenu(menu, f)
  {
    if i > 0 {
      ReferenceMenuComplete(menu[1..], f, i - 1);
    }
  }

  /** What the result holds: every category is selected and keeps only admitted items; after a
      search or veg filter none is empty; and every admitted item of a selected category is shown
      under that category's id. */
  lemma FilteredMenuContents(menu: Menu, f: MenuFilter)
    ensures forall c :: c in FilteredMenu(menu, f) ==>
      && (f.category == All || c.id == f.category)
      && (forall k :: 0 <= k < |c.items| ==> Keeps(f, c.items[k]))
      && (Prunes(f) ==> |c.items| > 0)
    ensures forall i, k :: 0 <= i < |menu| && Selects(f, menu[i]) && 0 <= k < |menu[i].items| && Keeps(f, menu[i].items[k]) ==>
      exists c :: c in FilteredMenu(menu, f) && c.id == menu[i].id && menu[i].items[k] in c.items
  {
    FilteredMenuIsReference(menu, f);
    forall c | c in FilteredMenu(menu, f)
      ensures && (f.category == All || c.id == f.category)
              && (forall k :: 0 <= k < |c.items| ==> Keeps(f, c.items[k]))
              && (Prunes(f) ==> |c.items| > 0)
    {
      ReferenceMenuSound(menu, f, c);
    }
    forall i, k | 0 <= i < |menu| && Selects(f, menu[i]) && 0 <= k < |menu[i].items| && Keeps(f, menu[i].items[k])
      ensures exists c :: c in FilteredMenu(menu, f) && c.id == menu[i].id && menu[i].items[k] in c.items
    {
      assert menu[i].items[k] in Narrow(f, menu[i]).items;
      ReferenceMenuComplete(menu, f, i);
    }
  }

  /** A search with a non-empty query keeps exactly the items whose lower-cased name or description
      contains the lower-cased query, and the veg filter keeps exactly the matching kind. */
  lemma KeepsMeaning(f: MenuFilter, item: MenuItem)
    ensures f.query != "" && f.veg == All ==>
      (Keeps(f, item) <==> Includes(Lower(item.name), Lower(f.query)) || Includes(Lower(item.description), Lower(f.query)))
    ensures f.query == "" && f.veg == VegOnly ==> (Keeps(f, item) <==> item.isVeg)
    ensures f.query == "" && f.veg != All && f.veg != VegOnly ==> (Keeps(f, item) <==> !item.isVeg)
  {
  }

  /** The filters only delete: the categories shown, and the items shown across them, keep the
      menu's order, and every shown item is unchanged. */
  lemma {:induction false} ReferenceMenuOrder(menu: Menu, f: MenuFilter)
    ensures IsSubseq(AllItems(ReferenceMenu(menu, f)), AllItems(menu))
  {
    if |menu| > 0 {
      ReferenceMenuOrder(menu[1..], f);
      var rest := ReferenceMenu(menu[1..], f);
      var n := Narrow(f, menu[0]);
      FilterIsSubseq(KeepsFor(f), menu[0].items);
      if Shown(f, menu[0]) {
        assert ReferenceMenu(menu, f) == [n] + rest;
        AllItemsConcat([n], rest);
        assert AllItems([n]) == n.items;
        SubseqConcat(n.items, menu[0].items, AllItems(rest), AllItems(menu[1..]));
      } else {
        assert ReferenceMenu(menu, f) == rest;
        SubseqAppendLeft(AllItems(rest), menu[0].items, AllItems(menu[1..]));
      }
    }
  }

  lemma {:induction false} ReferenceMenuCategoryOrder(menu: Menu, f: MenuFilter)
    ensures IsSubseq(Map(CategoryId, ReferenceMenu(menu, f)), Map(CategoryId, menu))
  {
    if |menu| > 0 {
      ReferenceMenuCategoryOrder(menu[1..], f);
      var rest := ReferenceMenu(menu[1..], f);
      assert Map(CategoryId, menu) == [menu[0].id] + Map(CategoryId, menu[1..]);
      if Shown(f, menu[0]) {
        assert ReferenceMenu(menu, f) == [Narrow(f, menu[0])] + rest;
        MapConcat(CategoryId, [Narrow(f, menu[0])], rest);
        SubseqRefl([menu[0].id]);
        SubseqConcat([menu[0].id], [menu[0].id], Map(CategoryId, rest), Map(CategoryId, menu[1..]));
      } else {
        assert ReferenceMenu(menu, f) == rest;
        SubseqAppendLeft(Map(CategoryId, rest), [menu[0].id], Map(CategoryId, menu[1..]));
      }
    }
  }

  function CategoryId(c: Category): string
  {
    c.id
  }

  /** The result lists categories in menu order and items in menu order across them. */
  lemma FilteredMenuOrder(menu: Menu, f: MenuFilter)
    ensures IsSubseq(Map(CategoryId, FilteredMenu(menu, f)), Map(CategoryId, menu))
    ensures IsSubseq(AllItems(FilteredMenu(menu, f)), AllItems(menu))
  {
    FilteredMenuIsReference(menu, f);
    ReferenceMenuOrder(menu, f);
    ReferenceMenuCategoryOrder(menu, f);
  }

  /** Two filters that select the same categories, prune alike and admit the same items show the same thing. */
  lemma {:induction false} ReferenceMenuExt(menu: Menu, f: MenuFilter, g: MenuFilter)
    requires f.category == g.category && Prunes(f) == Prunes(g)
    requires forall item :: Keeps(f, item) == Keeps(g, item)
    ensures ReferenceMenu(menu, f) == ReferenceMenu(menu, g)
  {
    if |menu| > 0 {
      FilterExt(KeepsFor(f), KeepsFor(g), menu[0].items);
      ReferenceMenuExt(menu[1..], f, g);
    }
  }

  /** The search ignores ASCII case: queries that lower-case alike give the same result. */
  lemma SearchIgnoresCase(menu: Menu, f: MenuFilter, q: string)
    requires Lower(q) == Lower(f.query)
    ensures FilteredMenu(menu, f.(query := q)) == FilteredMenu(menu, f)
  {
    var g := f.(query := q);
    assert |q| == |f.query|;
    FilteredMenuIsReference(menu, f);
    FilteredMenuIsReference(menu, g);
    ReferenceMenuExt(menu, f, g);
  }

  /** Selecting a category whose item list is empty shows it, empty: the category step does not prune;
      an active search or veg filter then removes it. */
  lemma CategoryStepKeepsEmpty(menu: Menu, i: int, q: string, veg: string)
    requires 0 <= i < |menu| && menu[i].items == []
    ensures menu[i] in FilteredMenu(menu, MenuFilter(menu[i].id, "", All))
    ensures q != "" || veg != All ==> menu[i] !in FilteredMenu(menu, MenuFilter(menu[i].id, q, veg))
  {
    var f := MenuFilter(menu[i].id, "", All);
    FilteredMenuIsReference(menu, f);
    ReferenceMenuComplete(menu, f, i);
    assert Narrow(f, menu[i]) == menu[i];
    FilteredMenuContents(menu, MenuFilter(menu[i].id, q, veg));
  }

  /** The category button: tapping the selected category goes back to `'all'`, tapping another selects it. */
  function ToggleCategory(selected: string, categoryId: string): (r: string)
    ensures r == All || r == categoryId
    ensures r == categoryId <==> selected != categoryId || categoryId == All
  {
    if selected == categoryId then All else categoryId
  }

  /** Tapping the same category button twice returns to the starting selection, when that was
      `'all'` or that category. */
  lemma ToggleTwice(selected: string, categoryId: string)
    requires categoryId != All
    requires selected == All || selected == categoryId
    ensures ToggleCategory(ToggleCategory(selected, categoryId), categoryId) == selected
  {
  }
}

=== FILE: options.dfy ===
/** Optional values and success/failure results, used where the JavaScript
    source has `undefined`/`null` fields or throws. */
module Options {

  /** A value that may be absent (`undefined` or `null` in the source). */
  datatype Option<+T> = None | Some(value: T)

  /** The outcome of an operation that either yields a value or fails with an error. */
  datatype Result<+R, +E> = Success(value: R) | Failure(error: E)
}

=== FILE: seed.dfy ===
/** The catalog the menu starts from (src/context/MenuContext.js): four
    categories, twenty-six items, every price a whole number of rupees. */
module Seed {
  import opened Options
  import opened Catalog

  const BiryaniItems: seq<MenuItem> := [
    MenuItem("1", "Chicken Biryani",
      "Fragrant basmati rice cooked with tender chicken and aromatic spices",
      220, Some(120),
      "https://images.unsplash.com/photo-1563379091339-03246963d96f?ixlib=rb-4.0.3&w=400",
      "25 min", 2, false, true),
    MenuItem("2", "Hyderabad Biryani",
      "Authentic Hyderabadi dum biryani with rich flavors and tender meat",
      250, Some(130),
      "https://images.unsplash.com/photo-1599043513900-ed6fe01d3833?ixlib=rb-4.0.3&w=400",
      "30 min", 3, false, true),
    MenuItem("3", "Mutton Biryani",
      "Succulent mutton pieces cooked with fragrant rice and spices",
      280, None,
      "https://images.unsplash.com/photo-1601050690597-df0568f70950?ixlib=rb-4.0.3&w=400",
      "35 min", 2, false, true),
    MenuItem("4", "Paneer Biryani",
      "Flavorful biryani with soft paneer cubes and aromatic rice",
      180, None,
      "https://images.unsplash.com/photo-1589302168068-964664d93dc0?ixlib=rb-4.0.3&w=400",
      "20 min", 1, true, true),
    MenuItem("5", "Egg Biryani",
      "Delicious biryani with boiled eggs and special spices",
      160, None,
      "https://images.unsplash.com/photo-1598214886806-c87ed84e5a1b?ixlib=rb-4.0.3&w=400",
      "20 min", 2, false, true)
  ]

  const RiceItems: seq<MenuItem> := [
    MenuItem("6", "Plain Rice",
      "Steamed basmati rice",
      90, None,
      "https://images.unsplash.com/photo-1536304993881-ff6e9eefa2a6?ixlib=rb-4.0.3&w=400",
      "15 min", 0, true, true),
    MenuItem("7", "Jeera Rice",
      "Basmati rice tempered with cumin seeds",
      120, None,
      "https://images.unsplash.com/photo-1512058564366-18510be2db19?ixlib=rb-4.0.3&w=400",
      "15 min", 0, true, true),
    MenuItem("8", "Veg Fried Rice",
      "Stir-fried rice with fresh vegetables",
      130, None,
      "https://images.unsplash.com/photo-1603133872878-684f270fb8f5?ixlib=rb-4.0.3&w=400",
      "20 min", 1, true, true),
    MenuItem("9", "Egg Fried Rice",
      "Fried rice with scrambled eggs and vegetables",
      160, None,
      "https://images.unsplash.com/photo-1641865750370-645fb8c6e5b4?ixlib=rb-4.0.3&w=400",
      "20 min", 1, false, true),
    MenuItem("10", "Chicken Fried Rice",
      "Flavorful fried rice with tender chicken pieces",
      180, None,
      "https://images.unsplash.com/photo-1631452180519-c014fe946bc7?ixlib=rb-4.0.3&w=400",
      "25 min", 2, false, true),
    MenuItem("11", "Mix Fried Rice",
      "Special fried rice with chicken, eggs, and vegetables",
      220, None,
      "https://images.unsplash.com/photo-1603133872642-9dbe4d25887e?ixlib=rb-4.0.3&w=400",
      "25 min", 2, false, true)
  ]

  const RotiItems: seq<MenuItem> := [
    MenuItem("12", "Plain Roti",
      "Traditional Indian whole wheat bread",
      10, None,
      "https://images.unsplash.com/photo-1601050690597-df0568f70950?ixlib=rb-4.0.3&w=400",
      "5 min", 0, true, true),
    MenuItem("13", "Plain Butter Roti",
      "Soft roti with fresh butter",
      15, None,
      "https://images.unsplash.com/photo-1546833999-b9f581a1996d?ixlib=rb-4.0.3&w=400",
      "5 min", 0, true, true),
    MenuItem("14", "Tandoori Roti",
      "Traditional Indian bread baked in clay tandoor",
      15, None,
      "https://images.unsplash.com/photo-1572802419224-296b0aeee0d9?ixlib=rb-4.0.3&w=400",
      "7 min", 0, true, true),
    MenuItem("15", "Tandoori Butter Roti",
      "Tandoori roti with fresh butter",
      20, None,
      "https://images.unsplash.com/photo-1565299624946-b28f40a0ca4b?ixlib=rb-4.0.3&w=400",
      "7 min", 0, true, true),
    MenuItem("16", "Tandoori Butter Naan",
      "Leavened bread with butter from tandoor",
      60, None,
      "https://images.unsplash.com/photo-1565299507177-b0ac66763828?ixlib=rb-4.0.3&w=400",
      "10 min", 0, true, true),
    MenuItem("17", "Plain Naan",
      "Classic leavened white bread",
      50, None,
      "https://images.unsplash.com/photo-1555949969-aa4bd76539d0?ixlib=rb-4.0.3&w=400",
      "10 min", 0, true, true),
    MenuItem("18", "Garlic Naan",
      "Soft naan bread topped with fresh garlic and herbs",
      70, None,
      "https://images.unsplash.com/photo-1565299588453-b8ec840b7c7e?ixlib=rb-4.0.3&w=400",
      "10 min", 0, true, true),
    MenuItem("19", "Paneer Kulcha Naan",
      "Stuffed bread with spiced paneer filling",
      100, None,
      "https://images.unsplash.com/photo-1555949969-aa4bd76539d0?ixlib=rb-4.0.3&w=400",
      "12 min", 1, true, true),
    MenuItem("20", "Masala Kulcha",
      "Spiced stuffed bread with potato and herbs",
      120, None,
      "https://images.unsplash.com/photo-1633945274417-ab438e34b372?ixlib=rb-4.0.3&w=400",
      "12 min", 1, true, true)
  ]

  const ParathaItems: seq<MenuItem> := [
    MenuItem("21", "Aloo Paratha",
      "Whole wheat bread stuffed with spiced potatoes",
      60, None,
      "https://images.unsplash.com/photo-1631452180519-c014fe946bc7?ixlib=rb-4.0.3&w=400",
      "15 min", 1, true, true),
    MenuItem("22", "Onion Paratha",
      "Flaky paratha stuffed with seasoned onions",
      70, None,
      "https://images.unsplash.com/photo-1633945274417-ab438e34b372?ixlib=rb-4.0.3&w=400",
      "15 min", 1, true, true),
    MenuItem("23", "Paneer Paratha",
      "Paratha filled with spiced cottage cheese",
      80, None,
      "https://images.unsplash.com/photo-1555949969-aa4bd76539d0?ixlib=rb-4.0.3&w=400",
      "15 min", 1, true, true),
    MenuItem("24", "Paneer Kulcha",
      "Soft kulcha stuffed with paneer filling",
      120, None,
      "https://images.unsplash.com/photo-1555949969-aa4bd76539d0?ixlib=rb-4.0.3&w=400",
      "12 min", 1, true, true),
    MenuItem("25", "Veg Kulcha",
      "Kulcha stuffed with mixed vegetables",
      90, None,
      "https://images.unsplash.com/photo-1633945274417-ab438e34b372?ixlib=rb-4.0.3&w=400",
      "12 min", 1, true, true),
    MenuItem("26", "Masala Kulcha",
      "Spiced kulcha with special masala filling",
      120, None,
      "https://images.unsplash.com/photo-1633945274417-ab438e34b372?ixlib=rb-4.0.3&w=400",
      "12 min", 2, true, true)
  ]

  const SeedMenu: Menu := [
    Category("1", "Biriyani & Rice", BiryaniItems),
    Category("2", "Rice", RiceItems),
    Category("3", "Roti", RotiItems),
    Category("4", "Paratha", ParathaItems)
  ]

  lemma SeedItems()
    ensures AllItems(SeedMenu) == BiryaniItems + RiceItems + RotiItems + ParathaItems
  {
    var c1, c2, c3, c4 := SeedMenu[0], SeedMenu[1], SeedMenu[2], SeedMenu[3];
    assert SeedMenu == [c1] + ([c2] + ([c3] + [c4]));
    AllItemsConcat([c1], [c2] + ([c3] + [c4]));
    AllItemsConcat([c2], [c3] + [c4]);
    AllItemsConcat([c3], [c4]);
    assert AllItems([c4]) == c4.items;
  }

  /** The item ids of the seed catalog, in catalog order. */
  const SeedIds: seq<string> := ["1","2","3","4","5","6","7","8","9","10","11","12","13","14","15","16","17","18","19","20","21","22","23","24","25","26"]

  /** The ids of `items` are `ids`, position by position. */
  predicate IdsAre(items: seq<MenuItem>, ids: seq<string>)
  {
    |items| == |ids| && forall k :: 0 <= k < |ids| ==> items[k].id == ids[k]
  }

  lemma IdsAreConcat(a: seq<MenuItem>, b: seq<MenuItem>, ia: seq<string>, ib: seq<string>)
    requires IdsAre(a, ia) && IdsAre(b, ib)
    ensures IdsAre(a + b, ia + ib)
  {
  }

  lemma BiryaniIds() ensures IdsAre(BiryaniItems, SeedIds[..5]) { }
  lemma RiceIds() ensures IdsAre(RiceItems, SeedIds[5..11]) { }
  lemma RotiIds() ensures IdsAre(RotiItems, SeedIds[11..20]) { }
  lemma ParathaIds() ensures IdsAre(ParathaItems, SeedIds[20..]) { }

  lemma SeedIdsInOrder()
    ensures IdsAre(AllItems(SeedMenu), SeedIds)
  {
    SeedItems();
    BiryaniIds();
    RiceIds();
    RotiIds();
    ParathaIds();
    IdsAreConcat(BiryaniItems, RiceItems, SeedIds[..5], SeedIds[5..11]);
    IdsAreConcat(BiryaniItems + RiceItems, RotiItems, SeedIds[..5] + SeedIds[5..11], SeedIds[11..20]);
    IdsAreConcat(BiryaniItems + RiceItems + RotiItems, ParathaItems, SeedIds[..5] + SeedIds[5..11] + SeedIds[11..20], SeedIds[20..]);
    assert SeedIds[..5] + SeedIds[5..11] + SeedIds[11..20] + SeedIds[20..] == SeedIds;
  }

  /** Item ids are unique across the whole seed catalog. */
  lemma SeedIdsDistinct()
    ensures forall i, j :: 0 <= i < j < |SeedIds| ==> SeedIds[i] != SeedIds[j]
  {
  }

  lemma SeedItemIdsUnique()
    ensures UniqueItemIds(SeedMenu)
  {
    SeedIdsInOrder();
    SeedIdsDistinct();
  }

  /** A positive price; a half price, when given, positive and below the full price; a spice level of 0 to 3. */
  predicate SoundPrices(x: MenuItem)
  {
    && x.price > 0
    && (x.halfPrice.Some? ==> 0 < x.halfPrice.value < x.price)
    && 0 <= x.spicyLevel <= 3
  }

  predicate AllSound(items: seq<MenuItem>)
  {
    forall k :: 0 <= k < |items| ==> SoundPrices(items[k])
  }

  lemma BiryaniSound() ensures AllSound(BiryaniItems) { }
  lemma RiceSound() ensures AllSound(RiceItems) { }
  lemma RotiSound() ensures AllSound(RotiItems) { }
  lemma ParathaSound() ensures AllSound(ParathaItems) { }

  /** Every seed item has sound prices: in particular every half price is below its full price. */
  lemma SeedPrices()
    ensures forall x :: x in AllItems(SeedMenu) ==> SoundPrices(x)
  {
    SeedItems();
    BiryaniSound();
    RiceSound();
    RotiSound();
    ParathaSound();
    var all := BiryaniItems + RiceItems + RotiItems + ParathaItems;
    assert AllSound(all);
  }

  /** Marking seed item "3" of category "1" unavailable changes that one flag and nothing else. */
  lemma SeedAvailabilityScenario()
    ensures UpdateItem(SeedMenu, "1", "3", SetAvailable(false))
         == SeedMenu[0 := SeedMenu[0].(items := BiryaniItems[2 := BiryaniItems[2].(available := false)])]
  {
    BiryaniIds();
    SeedIdsDistinct();
    assert LocatedAt(SeedMenu, 0, 2);
    UpdateItemAt(SeedMenu, 0, 2, SetAvailable(false));
    MergeLaws(BiryaniItems[2], NoFields, false, 0, 0);
  }

  /** The same update naming the unknown item "999" changes nothing. */
  lemma SeedMissingItemScenario()
    ensures UpdateItem(SeedMenu, "1", "999", SetAvailable(false)) == SeedMenu
  {
    BiryaniIds();
    assert !HasItem(SeedMenu, "1", "999");
    UpdateItemMissing(SeedMenu, "1", "999", SetAvailable(false));
  }
}

=== FILE: seqs.dfy ===
/** Generic sequence operations mirroring the JavaScript array methods the
    application uses (`filter`, `map`, `slice(0, n)`), and the subsequence
    relation used to state that a filtered list keeps its input's order. */
module Seqs {

  /** The elements of `s` that satisfy `p`, in their original order (`Array.prototype.filter`). */
  function Filter<T>(p: T -> bool, s: seq<T>): (r: seq<T>)
    ensures |r| <= |s|
    ensures forall i :: 0 <= i < |r| ==> r[i] in s && p(r[i])
    ensures forall i :: 0 <= i < |s| && p(s[i]) ==> s[i] in r
  {
    if |s| == 0 then []
    else
      assert s == [s[0]] + s[1..];
      (if p(s[0]) then [s[0]] else []) + Filter(p, s[1..])
  }

  /** `f` applied to every element of `s` (`Array.prototype.map`). */
  function Map<T, U>(f: T -> U, s: seq<T>): (r: seq<U>)
    ensures |r| == |s|
    ensures forall i :: 0 <= i < |s| ==> r[i] == f(s[i])
  {
    if |s| == 0 then [] else [f(s[0])] + Map(f, s[1..])
  }

  /** The first `n` elements of `s`, or all of them when `s` is shorter (`slice(0, n)`). */
  function Take<T>(s: seq<T>, n: nat): (r: seq<T>)
    ensures |r| == (if |s| < n then |s| else n)
    ensures r == s[..|r|]
  {
    if |s| < n then s else s[..n]
  }

  /** `a` is obtained from `b` by deleting elements: the survivors keep their relative order. */
  predicate IsSubseq<T(==)>(a: seq<T>, b: seq<T>)
    decreases |b|
  {
    || |a| == 0
    || (&& |b| > 0
        && ((a[0] == b[0] && IsSubseq(a[1..], b[1..])) || IsSubseq(a, b[1..])))
  }

  lemma {:induction false} FilterConcat<T>(p: T -> bool, a: seq<T>, b: seq<T>)
    ensures Filter(p, a + b) == Filter(p, a) + Filter(p, b)
    decreases |a|
  {
    if |a| == 0 {
      assert a + b == b;
    } else {
      assert (a + b)[0] == a[0];
      assert (a + b)[1..] == a[1..] + b;
      FilterConcat(p, a[1..], b);
    }
  }

  lemma MapConcat<T, U>(f: T -> U, a: seq<T>, b: seq<T>)
    ensures Map(f, a + b) == Map(f, a) + Map(f, b)
  {
  }

  /** Filtering with a predicate that holds everywhere on `s` changes nothing. */
  lemma {:induction false} FilterKeepsAll<T>(p: T -> bool, s: seq<T>)
    requires forall i :: 0 <= i < |s| ==> p(s[i])
    ensures Filter(p, s) == s
  {
    if |s| > 0 {
      FilterKeepsAll(p, s[1..]);
      assert s == [s[0]] + s[1..];
    }
  }

  /** Two predicates that agree on the elements of `s` filter it alike. */
  lemma {:induction false} FilterExt<T>(p: T -> bool, q: T -> bool, s: seq<T>)
    requires forall x :: x in s ==> p(x) == q(x)
    ensures Filter(p, s) == Filter(q, s)
  {
    if |s| > 0 {
      assert s[0] in s;
      FilterExt(p, q, s[1..]);
    }
  }

  /** Filtering twice is filtering once by the conjunction. */
  lemma {:induction false} FilterFilter<T>(p: T -> bool, q: T -> bool, pq: T -> bool, s: seq<T>)
    requires forall x :: x in s ==> pq(x) == (p(x) && q(x))
    ensures Filter(q, Filter(p, s)) == Filter(pq, s)
  {
    if |s| > 0 {
      assert s[0] in s;
      FilterFilter(p, q, pq, s[1..]);
      var rest := Filter(p, s[1..]);
      if p(s[0]) {
        assert Filter(p, s) == [s[0]] + rest;
        FilterConcat(q, [s[0]], rest);
        assert [s[0]][1..] == [];
        assert Filter(q, [s[0]]) == (if q(s[0]) then [s[0]] else []);
      } else {
        assert Filter(p, s) == rest;
      }
    }
  }

  /** Filtering keeps every element exactly when all satisfy `p`, and none exactly when none do. */
  lemma {:induction false} FilterLength<T>(p: T -> bool, s: seq<T>)
    ensures |Filter(p, s)| == |s| <==> forall i :: 0 <= i < |s| ==> p(s[i])
    ensures |Filter(p, s)| == 0 <==> forall i :: 0 <= i < |s| ==> !p(s[i])
  {
    if |s| > 0 {
      FilterLength(p, s[1..]);
      assert forall i :: 1 <= i < |s| ==> s[i] == s[1..][i - 1];
      if p(s[0]) {
        assert Filter(p, s)[0] == s[0];
      }
    }
  }

  /** Filtering out exactly one position splices that element out. */
  lemma {:induction false} FilterSplice<T>(p: T -> bool, s: seq<T>, k: int)
    requires 0 <= k < |s| && !p(s[k])
    requires forall j :: 0 <= j < |s| && j != k ==> p(s[j])
    ensures Filter(p, s) == s[..k] + s[k + 1..]
  {
    if k == 0 {
      FilterKeepsAll(p, s[1..]);
    } else {
      FilterSplice(p, s[1..], k - 1);
      assert s[..k] + s[k + 1..] == [s[0]] + (s[1..][..k - 1] + s[1..][k..]);
    }
  }

  /** No two elements of `s` share a key. */
  predicate DistinctBy<T, K(==)>(key: T -> K, s: seq<T>)
  {
    forall i, j :: 0 <= i < j < |s| ==> key(s[i]) != key(s[j])
  }

  /** Filtering keeps keys distinct. */
  lemma {:induction false} FilterDistinctBy<T, K>(key: T -> K, p: T -> bool, s: seq<T>)
    requires DistinctBy(key, s)
    ensures DistinctBy(key, Filter(p, s))
  {
    if |s| > 0 {
      var rest := s[1..];
      assert DistinctBy(key, rest) by {
        forall i, j | 0 <= i < j < |rest|
          ensures key(rest[i]) != key(rest[j])
        {
          assert rest[i] == s[i + 1] && rest[j] == s[j + 1];
        }
      }
      FilterDistinctBy(key, p, rest);
      var fr := Filter(p, rest);
      if p(s[0]) {
        assert forall k :: 0 <= k < |fr| ==> key(fr[k]) != key(s[0]) by {
          forall k | 0 <= k < |fr|
            ensures key(fr[k]) != key(s[0])
          {
            var j :| 0 <= j < |rest| && rest[j] == fr[k];
            assert s[j + 1] == fr[k];
          }
        }
        var r := [s[0]] + fr;
        assert forall i :: 1 <= i < |r| ==> r[i] == fr[i - 1];
      }
    }
  }

  lemma {:induction false} SubseqRefl<T>(a: seq<T>)
    ensures IsSubseq(a, a)
  {
    if |a| > 0 {
      SubseqRefl(a[1..]);
    }
  }

  lemma {:induction false} SubseqAppendLeft<T>(a: seq<T>, b: seq<T>, c: seq<T>)
    requires IsSubseq(a, c)
    ensures IsSubseq(a, b + c)
    decreases |b|
  {
    if |b| == 0 {
      assert b + c == c;
    } else {
      SubseqAppendLeft(a, b[1..], c);
      assert (b + c)[1..] == b[1..] + c;
    }
  }

  lemma {:induction false} SubseqConcat<T>(a1: seq<T>, b1: seq<T>, a2: seq<T>, b2: seq<T>)
    requires IsSubseq(a1, b1) && IsSubseq(a2, b2)
    ensures IsSubseq(a1 + a2, b1 + b2)
    decreases |b1|
  {
    if |a1| == 0 {
      assert a1 + a2 == a2;
      SubseqAppendLeft(a2, b1, b2);
    } else {
      assert (a1 + a2)[1..] == a1[1..] + a2;
      assert (b1 + b2)[1..] == b1[1..] + b2;
      if a1[0] == b1[0] && IsSubseq(a1[1..], b1[1..]) {
        SubseqConcat(a1[1..], b1[1..], a2, b2);
      } else {
        SubseqConcat(a1, b1[1..], a2, b2);
      }
    }
  }

  lemma {:induction false} SubseqTrans<T>(a: seq<T>, b: seq<T>, c: seq<T>)
    requires IsSubseq(a, b) && IsSubseq(b, c)
    ensures IsSubseq(a, c)
    decreases |c|
  {
    if |a| > 0 {
      if IsSubseq(b, c[1..]) {
        SubseqTrans(a, b, c[1..]);
      } else if a[0] == b[0] && IsSubseq(a[1..], b[1..]) {
        SubseqTrans(a[1..], b[1..], c[1..]);
      } else {
        SubseqTrans(a, b[1..], c[1..]);
      }
    }
  }

  /** A subsequence is no longer than its source and draws its elements from it. */
  lemma {:induction false} SubseqMembers<T>(a: seq<T>, b: seq<T>)
    requires IsSubseq(a, b)
    ensures |a| <= |b|
    ensures forall x :: x in a ==> x in b
    decreases |b|
  {
    if |a| > 0 {
      if a[0] == b[0] && IsSubseq(a[1..], b[1..]) {
        SubseqMembers(a[1..], b[1..]);
        assert a == [a[0]] + a[1..];
      } else {
        SubseqMembers(a, b[1..]);
      }
      assert b == [b[0]] + b[1..];
    }
  }

  lemma {:induction false} FilterIsSubseq<T>(p: T -> bool, s: seq<T>)
    ensures IsSubseq(Filter(p, s), s)
  {
    if |s| > 0 {
      FilterIsSubseq(p, s[1..]);
      var rest := Filter(p, s[1..]);
      if p(s[0]) {
        assert Filter(p, s) == [s[0]] + rest;
        assert ([s[0]] + rest)[1..] == rest;
      } else {
        assert Filter(p, s) == rest;
        SubseqAppendLeft(rest, [s[0]], s[1..]);
        assert [s[0]] + s[1..] == s;
      }
    }
  }

  lemma PrefixIsSubseq<T>(s: seq<T>, k: nat)
    requires k <= |s|
    ensures IsSubseq(s[..k], s)
  {
    SubseqRefl(s[..k]);
    assert IsSubseq([], s[k..]);
    SubseqConcat(s[..k], s[..k], [], s[k..]);
    assert s[..k] + [] == s[..k];
    assert s[..k] + s[k..] == s;
  }
}

=== FILE: text.dfy ===
/** The two string operations the menu search uses: `toLowerCase` (restricted
    to ASCII letters) and `includes` (substring containment). */
module Text {

  /** ASCII lower-casing of one character; every other character is unchanged. */
  function LowerChar(c: char): char
  {
    if 'A' <= c <= 'Z' then (c as int + 32) as char else c
  }

  /** `toLowerCase` on ASCII text. */
  function Lower(s: string): (r: string)
    ensures |r| == |s|
    ensures forall i :: 0 <= i < |s| ==> r[i] == LowerChar(s[i])
  {
    if |s| == 0 then "" else [LowerChar(s[0])] + Lower(s[1..])
  }

  /** `hay.includes(needle)`, defined by scanning: `needle` is a prefix of `hay` or of one of its suffixes. */
  predicate Includes(hay: string, needle: string)
    decreases |hay|
  {
    needle <= hay || (|hay| > 0 && Includes(hay[1..], needle))
  }

  /** Lower-casing is idempotent and leaves no upper-case ASCII letter behind. */
  lemma LowerIdempotent(s: string)
    ensures Lower(Lower(s)) == Lower(s)
    ensures forall i :: 0 <= i < |s| ==> !('A' <= Lower(s)[i] <= 'Z')
  {
  }

  /** `needle` occurs in `hay` starting at index `i`. */
  predicate OccursAt(hay: string, needle: string, i: int)
  {
    0 <= i && i + |needle| <= |hay| && hay[i..i + |needle|] == needle
  }

  /** The scanning definition agrees with "occurs at some index". */
  lemma {:induction false} IncludesAt(hay: string, needle: string)
    ensures Includes(hay, needle) <==> exists i :: OccursAt(hay, needle, i)
    decreases |hay|
  {
    if needle <= hay {
      assert OccursAt(hay, needle, 0);
    } else if |hay| == 0 {
      assert forall i :: !OccursAt(hay, needle, i);
    } else {
      IncludesAt(hay[1..], needle);
      if Includes(hay[1..], needle) {
        var j :| OccursAt(hay[1..], needle, j);
        assert hay[j + 1..j + 1 + |needle|] == hay[1..][j..j + |needle|];
        assert OccursAt(hay, needle, j + 1);
      } else {
        forall i | OccursAt(hay, needle, i) && i > 0
          ensures OccursAt(hay[1..], needle, i - 1)
        {
          var w, v := hay[i..i + |needle|], hay[1..][i - 1..i - 1 + |needle|];
          assert forall m :: 0 <= m < |needle| ==> w[m] == v[m];
          assert w == v;
        }
      }
    }
  }

  /** Every string includes the empty string; nothing includes a longer string. */
  lemma IncludesBounds(hay: string, needle: string)
    ensures Includes(hay, "")
    ensures |needle| > |hay| ==> !Includes(hay, needle)
  {
    IncludesAt(hay, "");
    assert OccursAt(hay, "", 0);
    IncludesAt(hay, needle);
  }
}
